=== FILE: README.md ===
# News category classifier — a Dafny model of its core

The repository is a small Flask service. It classifies a news headline into
one of five categories (ENTERTAINMENT, POLITICS, STYLE & BEAUTY, TRAVEL,
WELLNESS). This project models the parts of it that make decisions, and
proves what those parts promise:

- **Text normaliser** (`model_utils.py`, module `Preprocessing`):
  `preprocess_text` truncates the headline to 5000 characters and
  lowercases it. It deletes every character that is neither a word character
  nor whitespace, splits on whitespace, drops stopwords and rejoins the
  remaining words with single spaces.
- **Classifier adapter** (`model_utils.py`, module `ModelUtils`):
  - `predict` rejects a text that normalises to nothing.
  - Otherwise it asks the classifier and turns its (index, probability
    vector) answer into a label, a confidence, and the (label, probability)
    pairs sorted by decreasing probability and cut to the top five.
  - The module globals `_model` and `_label_encoder_classes` are a two-state
    cache. They are the fields of the class `ClassifierAdapter`.
  - The in-place `list.sort` is an insertion sort on an array. It is proved
    equal to a stable functional sort.
- **HTTP facade** (`app.py`, module `App`):
  - `/predict` is an ordered ladder of request guards. The outcome of the
    model call is mapped to 200, 400 or 500.
  - `/health` and `/model-info` map the model-information lookup to 200 or
    500.
  - The 404, 405 and 500 handlers share the `{success: false, error}` shape.
  - Requests are values: whether the content type is JSON, and what
    `get_json()` yields, as a JSON datatype with Python truthiness and
    Python's `in`.
- **Browser script** (`static/js/main.js`, module `ClientScript`):
  - `adjustColor` works on 24-bit RGB values.
  - `handlePredict` has its own input guard, based on JavaScript's `trim`.
  - The character counter has three colour bands.
  - The page state (the four result panels, the error message, the
    predict button, `currentPrediction`) is the class `Page`. Its methods
    update the state the way `showResultsSection`, `updateCharCount`,
    `showError`, `handleClear` and `handlePredict` do. Its invariant is that
    at most one panel is displayed.

The client and the server disagree on what counts as blank. JavaScript's
`trim` does not remove the ASCII information separators 0x1c–0x1f, but
Python's `str.strip` does. A headline made of only such characters passes
the browser's guard. The server then refuses it with "Text cannot be empty
or only whitespace" (`ClientScript.SeparatorPassesClient`,
`ClientScript.SeparatorRefusedByServer`). The browser reports the server's
message, so nothing is lost, but the two guards are not the same predicate.

Files: `common.dfy` (Option, Result), `config.dfy` (the constants of
config.py), `preprocessing.dfy`, `model_utils.dfy`, `app.dfy`,
`client_script.dfy`.

## Model

| member | source | states |
|---|---|---|
| `Preprocessing.Truncate` | model_utils.py:87-88 | the result is a prefix of the input: the input itself when it has at most 5000 characters, otherwise exactly its first 5000 |
| `Preprocessing.Lower` | model_utils.py:91 | same length; an upper-case letter becomes its lower-case letter (code + 32) and every other character is kept, so no upper-case letter is left and word characters stay word characters |
| `Preprocessing.RemovePunctuation` | model_utils.py:95 | no longer than the input; every remaining character is a word character or whitespace and occurs in the input |
| `Preprocessing.RemovePunctuationChar` | model_utils.py:95 | one character is kept exactly when it is a word character or whitespace, and deleted otherwise |
| `Preprocessing.RemovePunctuationAppend` | model_utils.py:95 | the substitution works character by character: cleaning a concatenation cleans each part, in order |
| `Preprocessing.RemovePunctuationKeepsAll` | model_utils.py:95 | a text made only of word characters and whitespace comes through unchanged |
| `Preprocessing.WordLength` | model_utils.py:98 | the length of the first word: no whitespace before it, and whitespace (or the end) at it |
| `Preprocessing.Split` | model_utils.py:98 | every word is non-empty, has no whitespace, and is made of characters of the input |
| `Preprocessing.SplitWord` | model_utils.py:98 | a non-empty run without whitespace splits into itself alone |
| `Preprocessing.SplitAtSpace` | model_utils.py:98 | a whitespace character separates: the words of `a + c + b` are the words of `a` followed by those of `b`, so runs of whitespace and leading or trailing whitespace yield no empty word |
| `Preprocessing.RemoveStopWords` | model_utils.py:99 | a word is kept exactly when it is in the input and not a stopword; every non-stopword keeps its number of occurrences, and no stopword is left |
| `Preprocessing.RemoveStopWordsSubsequence` | model_utils.py:99 | the kept words are an order-preserving subsequence of the input words |
| `Preprocessing.RemoveStopWordsKeepsAll` | model_utils.py:99 | with no stopword present, nothing is removed |
| `Preprocessing.SplitYieldsTokens` | model_utils.py:98 | splitting a cleaned, lowercased text yields only non-empty words of lowercase word characters |
| `Preprocessing.SplitJoin` | model_utils.py:98-100 | splitting the single-space join of such words gives back exactly those words (round trip) |
| `Preprocessing.JoinNonEmpty` | model_utils.py:100 | joining at least one non-empty word gives a non-empty text |
| `Preprocessing.JoinNormalized` | model_utils.py:100 | joining such words gives text of lowercase word characters and single spaces, with no leading, trailing or doubled space |
| `Preprocessing.JoinSplitLength` | model_utils.py:98-100 | re-joining the split words never lengthens the text |
| `Preprocessing.JoinRemoveStopWordsLength` | model_utils.py:99-100 | dropping stopwords never lengthens the joined text |
| `Preprocessing.CleanedCharacters` | model_utils.py:91-95 | after lowercasing and punctuation removal only lowercase word characters and whitespace remain |
| `Preprocessing.KeptWordsAreTokens` | model_utils.py:91-99 | the kept words are lowercase tokens, none a stopword, in the order they had among the cleaned words |
| `Preprocessing.PreprocessEmpty` | model_utils.py:83-84 | the empty input normalises to the empty string |
| `Preprocessing.PreprocessOnlyPrefixMatters` | model_utils.py:87-88 | a long input normalises as its first 5000 characters do |
| `Preprocessing.PreprocessShape` | model_utils.py:83-102 | the output is normalised (single spaces, lowercase word characters), at most 5000 long; its words are the kept words, none a stopword, an order-preserving subsequence of the cleaned input's words |
| `Preprocessing.PreprocessBlankIffEmpty` | model_utils.py:98-100 | the output is whitespace-only exactly when it is empty, so the `strip()` test in `predict` is an emptiness test |
| `Preprocessing.PreprocessIdempotent` | model_utils.py:87-100 | normalising a normalised text changes nothing |
| `Preprocessing.LowerKeepsLowerCase` | model_utils.py:91 | lowercasing a text without upper-case letters changes nothing |
| `Preprocessing.Join` | model_utils.py:100 | `' '.join`; its meaning is stated by `SplitJoin` (splitting the join gives the words back), `JoinNormalized` and `JoinNonEmpty` |
| `Preprocessing.KeptWords` | model_utils.py:98-99 | the words that survive the stopword filter; stated by `KeptWordsAreTokens` |
| `Preprocessing.Preprocess` | model_utils.py:68-102 | `preprocess_text`; its meaning is stated by `PreprocessEmpty`, `PreprocessShape`, `PreprocessOnlyPrefixMatters`, `PreprocessBlankIffEmpty` and `PreprocessIdempotent` |
| `ModelUtils.InsertByProbability` | model_utils.py:161 | inserting one pair lengthens the list by one |
| `ModelUtils.InsertIsPermutation` | model_utils.py:161 | insertion adds exactly the inserted pair to the multiset of pairs |
| `ModelUtils.InsertSorted` | model_utils.py:161 | insertion into a list sorted by decreasing probability keeps it sorted |
| `ModelUtils.InsertAt` | model_utils.py:161 | insertion puts the pair after every pair at least as probable and before the first less probable one |
| `ModelUtils.InsertTies` | model_utils.py:161 | insertion places the new pair after the pairs of equal probability already there (stability) |
| `ModelUtils.TiesAppend` | model_utils.py:161 | the pairs of one probability in a concatenation are those of each part, in order |
| `ModelUtils.SortByProbability` | model_utils.py:160-161 | `all_probs.sort(key=..., reverse=True)` as a stable insertion sort; stated by `SortByProbabilityIsSorted`, `SortByProbabilityIsPermutation` and `SortByProbabilityIsStable` |
| `ModelUtils.SortByProbabilityIsSorted` | model_utils.py:160-161 | the sort's result is non-increasing in probability |
| `ModelUtils.SortByProbabilityIsPermutation` | model_utils.py:160-161 | the sort's result is a permutation of its input |
| `ModelUtils.SortByProbabilityIsStable` | model_utils.py:160-161 | pairs of equal probability keep their input order (Python's sort is stable) |
| `ModelUtils.SortByProbabilityInPlace` | model_utils.py:161 | the in-place insertion sort leaves the array equal to the stable sort of its old contents |
| `ModelUtils.InsertInPlace` | model_utils.py:161 | one pass inserts `a[i]` into the sorted prefix `a[..i]` as the functional insertion does, and leaves the rest of the array alone |
| `ModelUtils.ShiftLessProbable` | model_utils.py:161 | the less probable pairs just before position `i` move one place right; the stopping point has a pair at least as probable before it; the rest is unchanged |
| `ModelUtils.Position` | model_utils.py:149-150 | the entry numpy reads for an in-range index: the index itself, or for a negative one the index counted from the end |
| `ModelUtils.Pairs` | model_utils.py:153-159 | the (label, probability) pair of each of the five classes, in class order; stated by `PredictSuccess` (the list is a permutation of these pairs) |
| `ModelUtils.TopK` | model_utils.py:164 | the prefix of the sorted list of exactly min(TOP_K_PREDICTIONS, length) entries, the whole list when it is that short |
| `ModelUtils.Shape` | model_utils.py:141-174 | the `try` block for one classifier answer; stated by `ShapeSucceedsIffFits` and `ShapeSuccess` |
| `ModelUtils.ShapeSucceedsIffFits` | model_utils.py:143-174 | shaping succeeds exactly when the classifier did not raise, its index is one numpy accepts on the five-class table (-5 to 4) and the probability vector covers the five classes; otherwise it is the "Prediction failed" error, carrying the classifier's own message when it raised |
| `ModelUtils.ShapeSuccess` | model_utils.py:143-171 | on success: label and confidence are read at the index, counting from the end for a negative one; the list is five pairs, sorted, a permutation of the class pairs, ties in class order |
| `ModelUtils.NegativeIndexCountsFromEnd` | model_utils.py:149-150 | an index of -1 is the last class, WELLNESS, with the last probability, not an error |
| `ModelUtils.PredictSpec` | model_utils.py:136-174 | `predict` with the model loaded; stated by `PredictRejectsExactlyEmptyText`, `PredictSuccess`, `PredictFailsOnBadAnswer` and `PredictorAnswers` |
| `ModelUtils.Predictor` | model_utils.py:136-174 | `predict` with the model loaded, as the function the endpoint calls; stated by `PredictorAnswers` |
| `ModelUtils.PredictorAnswers` | model_utils.py:136-174 | as the endpoint sees it: an empty normalised text is the ValueError, otherwise success exactly when the classifier's answer fits the table |
| `ModelUtils.Infer` | model_utils.py:136-174 | `predict` once the model is loaded, as the array-building, in-place-sorting code computes it, equals the specification `PredictSpec` |
| `ModelUtils.ShapeAnswer` | model_utils.py:141-174 | the `try` block as code: building the pairs in an array and sorting it in place gives exactly `Shape`'s answer |
| `ModelUtils.PredictRejectsExactlyEmptyText` | model_utils.py:136-139 | `predict` fails with the ValueError exactly when the normalised text is empty, and then the answer does not depend on the model |
| `ModelUtils.PredictSuccess` | model_utils.py:136-171 | on success the index is in [-5, 5) and the vector covers the five classes; the label and the confidence are `classes[index]` and `probabilities[index]`, counted from the end for a negative index; the text is the normalised one; the list holds the five pairs, sorted, a permutation of the class pairs, ties kept in class order |
| `ModelUtils.PredictFailsOnBadAnswer` | model_utils.py:141-174 | once the text is non-empty, `predict` fails exactly when the classifier raises, answers an index outside [-5, 5), or gives fewer than five probabilities |
| `ModelUtils.Load` | model_utils.py:44-65 | a cached model is returned as it is; otherwise a missing file is the not-found error for the path, an unreadable one the load failure with its reason, and a stored model is returned itself; loading never raises the ValueError |
| `ModelUtils.LoadIsIdempotent` | model_utils.py:44-45 | once a model is cached, loading returns it again whatever is on disk |
| `ModelUtils.ClassifierAdapter.constructor` | model_utils.py:23-25 | the cache starts empty, with no class table |
| `ModelUtils.ClassifierAdapter.LoadModel` | model_utils.py:28-65 | returns the cached model if there is one, otherwise a missing file raises not-found and an unreadable one a load failure, leaving the cache as it was; a loaded model is cached with the five-label table |
| `ModelUtils.ClassifierAdapter.Predict` | model_utils.py:129-174 | loads first (a load failure is the error and leaves the cache unchanged), then answers as `PredictSpec` on the loaded model |
| `ModelUtils.Info` | model_utils.py:189-200 | the fixed metadata dictionary around the class table; stated by `ClassifierAdapter.GetModelInfo` |
| `ModelUtils.ModelError.Message` | model_utils.py:48-51 | `str(e)` of the four exceptions: the not-found, load-failure, empty-text and prediction-failure messages, never empty |
| `ModelUtils.ClassifierAdapter.GetModelInfo` | model_utils.py:177-200 | loads first, then returns the fixed metadata with the five categories, or the load error |
| `App.Truthy` | app.py:101 | Python truthiness of the JSON data; stated by `EmptyDataRejected` (null, false, 0, "", [] and {} are refused) |
| `App.IsSubstring` | app.py:107 | Python's `in` on a string body; stated by `NonObjectBodies` |
| `App.HasTextField` | app.py:107 | `'text' in data`: a key test on a dict, element and substring tests on a list and a string, a TypeError on a number, a boolean or null |
| `App.TextField` | app.py:113 | `data['text']` succeeds exactly on a dict holding the key and yields its value; on a non-dict it is a TypeError; a dict without the key (a KeyError in Python) is never reached, since app.py:107 tests for the key first |
| `App.ServerError` | app.py:153-160 | the 500 body of the `except Exception` branch, with details only in debug mode; stated by `PredictErrorsMapped` and `ValidateRequest` |
| `App.Acceptable` | app.py:91-132 | the requests every guard lets through: JSON, a dict with a string `text` that is not blank and at most 5000 long; stated by `ValidateRequest` (passes exactly these) and `PredictEndpoint` |
| `App.ValidateRequest` | app.py:89-132 | the guard ladder passes exactly the acceptable requests, handing on their text; every refusal has the error shape with status 400, or 500 for a Python TypeError or a malformed body, with details exactly in debug mode |
| `App.PredictEndpoint` | app.py:67-160 | a non-JSON request gets 400 before anything else; 200 exactly when the request is acceptable and `predict` succeeds, carrying its result unchanged; every other answer is 400 or 500 with `success: false`; details only in debug mode |
| `App.EmptyDataRejected` | app.py:101-105 | falsy JSON data (null, false, 0, "", [], {}) gets 400 "No JSON data provided" |
| `App.MissingTextRejected` | app.py:107-111 | a non-empty object without a `text` key gets 400 "Missing 'text' field in request" |
| `App.TextValueChecks` | app.py:113-132 | a non-string or empty `text` gets 400, whitespace-only text gets 400, text over 5000 characters gets 400, and text of exactly 5000 non-blank characters reaches the model |
| `App.NonObjectBodies` | app.py:107-113 | for a list or a string body, `'text' in data` is membership or substring; where it holds, subscripting with "text" raises TypeError (500), otherwise 400 missing field; a number or `true` raises TypeError (500) |
| `App.GuardsPrecedeModel` | app.py:89-136 | a request the guards refuse gets the same answer whatever the model would do |
| `App.PredictErrorsMapped` | app.py:145-160 | a ValueError from `predict` gives 400 with its message; any other failure gives 500 with the fixed message and details only in debug mode |
| `App.PredictWithModel` | app.py:134-151 | with the real `predict`: a text that normalises to nothing gets 400 with the empty-after-preprocessing message; otherwise 200 exactly when the classifier's answer fits the class table |
| `App.Health` | app.py:43-64 | 200 exactly when the model information is available, with `model_loaded` and `healthy` true and the information attached; otherwise 500 with the exception's message and no information |
| `App.ModelInfoEndpoint` | app.py:163-181 | 200 with `success: true` and the information exactly when it is available; otherwise 500 with the exception's message in the error shape |
| `App.NotFound` | app.py:184-190 | 404 "Endpoint not found"; its shape is stated by `ErrorsShareOneShape` |
| `App.MethodNotAllowed` | app.py:193-199 | 405 "Method not allowed"; its shape is stated by `ErrorsShareOneShape` |
| `App.InternalError` | app.py:202-209 | 500 "Internal server error"; its shape is stated by `ErrorsShareOneShape` |
| `App.ErrorsShareOneShape` | app.py:184-209 | every non-200 answer of `/predict` and `/model-info`, and the 404, 405 and 500 handlers, carry `success: false` and an error message; the handlers answer 404, 405 and 500 |
| `ClientScript.DigitValue` | static/js/main.js:339 | a hex digit is worth less than 16 |
| `ClientScript.Digit` | static/js/main.js:347 | the digit written for a value is a lowercase hex digit that reads back as that value |
| `ClientScript.ParseHex` | static/js/main.js:339 | a string of k hex digits reads as a number below 16^k |
| `ClientScript.ToHex` | static/js/main.js:347 | `toString(16)` writes at least one digit |
| `ClientScript.FixedHex` | static/js/main.js:347 | a number written in k lowercase hex digits has exactly k of them |
| `ClientScript.Clamp` | static/js/main.js:344-346 | the nested conditional clamps to [0, 255]: values in range are kept, below go to 0, above to 255 |
| `ClientScript.ToHexOfMarked` | static/js/main.js:344-347 | adding the marker 16^k before `toString(16)` writes a "1" followed by exactly k digits, so `slice(1)` keeps the leading zeros |
| `ClientScript.ParseFixedHex` | static/js/main.js:339 | reading back k written digits gives the number written (round trip) |
| `ClientScript.FixedHexOfParse` | static/js/main.js:339-347 | writing back the number read from k hex digits gives those digits lowercased (round trip) |
| `ClientScript.Red` | static/js/main.js:341 | `num >> 16`; stated with the other two channels by `Unpack` and `Pack` |
| `ClientScript.Green` | static/js/main.js:342 | `num >> 8 & 0x00FF`; stated by `Unpack` and `Pack` |
| `ClientScript.Blue` | static/js/main.js:343 | `num & 0x0000FF`; stated by `Unpack` and `Pack` |
| `ClientScript.Unpack` | static/js/main.js:341-343 | shift and mask recover the three bytes packed with 0x10000 and 0x100 |
| `ClientScript.Pack` | static/js/main.js:341-343 | every 24-bit value is the packing of its shifted-and-masked bytes |
| `ClientScript.SixDigits` | static/js/main.js:344-347 | for a 24-bit value, `(0x1000000 + v).toString(16).slice(1)` is v in six lowercase digits |
| `ClientScript.Adjusted` | static/js/main.js:341-346 | the three shifted, clamped channels packed again; stated by `AdjustColorValue` and `AdjustColorChannels` |
| `ClientScript.AdjustColor` | static/js/main.js:338-348 | `adjustColor`; stated by `AdjustColorEncodes`, `AdjustColorShape`, `AdjustColorValue`, `AdjustColorChannels`, `AdjustColorZero` and `AdjustColorBrightens` |
| `ClientScript.AdjustColorEncodes` | static/js/main.js:338-348 | the result is "#" and the adjusted 24-bit value in six lowercase digits |
| `ClientScript.AdjustColorShape` | static/js/main.js:338-348 | for a "#rrggbb" input the result is "#" followed by exactly six lowercase hex digits |
| `ClientScript.AdjustColorValue` | static/js/main.js:339-346 | the result's digits read as the packing of the three clamped, shifted channels |
| `ClientScript.AdjustColorChannels` | static/js/main.js:339-346 | each output channel is the input channel plus `amt`, clamped to [0, 255] |
| `ClientScript.AdjustColorZero` | static/js/main.js:338-348 | with `amt = 0` the colour comes back unchanged but lowercased |
| `ClientScript.AdjustColorBrightens` | static/js/main.js:341-346 | with a non-negative `amt` no channel decreases |
| `ClientScript.TrimStart` | static/js/main.js:100 | drops exactly the leading whitespace: the result is a suffix, the dropped part is blank, and it does not start with whitespace |
| `ClientScript.TrimEnd` | static/js/main.js:100 | drops exactly the trailing whitespace: the result is a prefix, the dropped part is blank, and it does not end with whitespace |
| `ClientScript.Trim` | static/js/main.js:100 | the result is a contiguous piece of the input with only whitespace before and after it; empty exactly for a blank input; otherwise neither end is whitespace |
| `ClientScript.TrimFrame` | static/js/main.js:100 | the trimmed text sits in the input between a blank prefix and a blank suffix |
| `ClientScript.TrimOfPadded` | static/js/main.js:100 | trimming a text that neither starts nor ends with whitespace, padded with whitespace on both sides, gives back that text (round trip) |
| `ClientScript.ValidateInput` | static/js/main.js:100-111 | accepts exactly a text that is not blank and trims to at most 5000 characters, handing on the trimmed text; otherwise the empty-input message for blank text, else the too-long message |
| `ClientScript.RequestFor` | static/js/main.js:120-126 | the JSON request `{"text": text}`; stated by `ClientAndServerGuards` and `ClientReportsServerAnswer` |
| `ClientScript.ClientAndServerGuards` | static/js/main.js:100-125 | a text the browser sends passes the server's guards exactly when it is not blank in Python's sense |
| `ClientScript.SeparatorPassesClient` | static/js/main.js:100-111 | a headline of one information separator (0x1c) passes the browser's guard untrimmed |
| `ClientScript.SeparatorRefusedByServer` | app.py:122-126 | the same headline gets 400 "Text cannot be empty or only whitespace" from the server |
| `ClientScript.OrElse` | static/js/main.js:131-143 | JavaScript's logical or on messages: the first when it is non-empty, else the fallback; stated by `ReadReply` (a failure message is never empty) and `ClientReportsServerAnswer` |
| `ClientScript.ErrorField` | static/js/main.js:131-138 | `data.error`, read as empty when the body has none; stated by `ClientReportsServerAnswer` (the message shown is the server's error text) |
| `ClientScript.ReadReply` | static/js/main.js:128-143 | a thrown error is passed on as it is; a prediction comes out exactly for a 2xx reply carrying a prediction body, and it is that prediction; any other reply gives a non-empty message, the server's error text or a fixed one |
| `ClientScript.ClientReportsServerAnswer` | static/js/main.js:128-143 | for an answer of `/predict`, the browser shows a prediction exactly when the status is 200, and it is `predict`'s result; otherwise it reports the server's non-empty error message |
| `ClientScript.CountColor` | static/js/main.js:73-79 | red exactly above 4500 characters, orange exactly for 4001 to 4500, blue exactly up to 4000 |
| `ClientScript.Page.OnlyShownMeansExactlyOne` | static/js/main.js:85-94 | when only one section is shown, a panel is displayed exactly when it is that section |
| `ClientScript.Page.constructor` | static/js/main.js:30 | no prediction (as `currentPrediction = null` says); the empty panel alone, an empty text and an enabled button are assumed from the page template, which is not part of this model |
| `ClientScript.Page.ShowResultsSection` | static/js/main.js:85-94 | afterwards exactly the given panel is displayed, or none for null |
| `ClientScript.Page.UpdateCharCount` | static/js/main.js:68-80 | the counter shows the text's length in the colour of its band |
| `ClientScript.Page.ShowError` | static/js/main.js:231-234 | the error panel alone is displayed, carrying the message |
| `ClientScript.Page.ErrorTimeout` | static/js/main.js:236-240 | five seconds later the empty panel replaces a still-displayed error panel; otherwise nothing changes; at most one panel stays displayed |
| `ClientScript.Page.HandleClear` | static/js/main.js:246-252 | text cleared, counter 0 in blue, empty panel alone, prediction forgotten |
| `ClientScript.Page.HandlePredict` | static/js/main.js:99-149 | sends exactly the text the guard accepts; a refused text shows the error panel with the guard's message and sends nothing; a sent one ends with the button enabled and the page showing the reply, the error message untouched when the reply is a prediction |
| `ClientScript.Page.Request` | static/js/main.js:113-148 | after the request: the button is enabled again and the page shows the reply's outcome, with the earlier prediction kept on failure and the error message kept on success |
| `ClientScript.Page.ReceiveReply` | static/js/main.js:118-143 | a successful reply becomes the displayed current prediction; a failed one shows its message, or the generic one, on the error panel and keeps the previous prediction; a successful one leaves the error message as it was |

## Left out

- Flask plumbing (app.py:7-29 and 212-221): `jsonify`, routing, logging, `render_template`, `app.run`. The startup `load_model()` call is left out too; the cache's behaviour is modelled by `ClassifierAdapter`.
- A request is an is-JSON flag and a parsed payload. A body that declares JSON but does not parse is `Unparseable`. It maps to 500, the same as the other exceptions caught by the `except Exception` branch.
- `DEBUG` is a parameter of the endpoint functions, not a configuration constant.
- The scikit-learn pipeline (`joblib.load`, `predict`, `predict_proba`) is an oracle. It is a function from normalised text to an answer: an index and a probability vector, or an exception. A negative index counts from the end as numpy's does; only an index outside [-5, 5) or a vector shorter than five raises, and numpy's IndexError then stands in as a fixed message.
- The filesystem check `os.path.exists` and the unpickling are a `ModelFile` parameter: missing, unreadable, or holding a model.
- NLTK's stopword list and its download are a stopword-set parameter.
- Characters are ASCII. The Unicode meaning of `\w`, `str.lower`, `str.split` and `str.strip` is not modelled. Non-ASCII characters count as neither word characters nor whitespace. On the browser side, JavaScript's `trim` also removes U+00A0, U+FEFF, the other space separators and the line terminators, and `String.length` (used by `updateCharCount` and `handlePredict`) counts UTF-16 code units; `IsJsSpace` covers only ASCII 9-13 and 32, and a length is the number of characters.
- Probabilities and confidences are reals, not floats. Rounding, `float()`, and the `toFixed`/percentage formatting of main.js:162-174 are not modelled.
- ClientScript.AdjustColor: requires a "#" and six hex digits. main.js:338-348 accepts any string, and `parseInt` then gives NaN or a prefix value; only the colours the page passes are modelled. `Math.round(2.55 * percent)` is left out, and `amt` is the integer parameter.
- `fetch`, `response.json()` and the network: the `/predict` reply is a parameter of `Page.HandlePredict`. It is either the response or a failure text for a thrown error.
- ClientScript.ReadReply: `response.ok` is a 2xx status. Only a prediction body counts as `data.success`. Other bodies carrying `success: true` are read as "Unknown error"; `/predict` never sends them.
- DOM details (innerHTML, spinner markup, focus, scrolling), `displayPrediction`, `displayAllProbabilities`, `handleCopy`, `handleModelInfo` and `init`: UI and asynchronous I/O. `displayPrediction` is reduced to showing the success panel and recording the prediction.
- `setTimeout` is not a clock. Its callback is the separate method `Page.ErrorTimeout`, which the caller invokes.
- App.Health: the 500 answer of `/health` carries `status: "unhealthy"`, the message and `model_loaded: false`, but no `success` field. The model follows that code rather than the common error shape.
- ClientScript.Page.HandlePredict: the two awaits (`fetch`, `response.json()`) are one step. In the browser, other handlers or a second Ctrl+Enter can run while the request is pending. "Keeps the previous prediction" means the value when the reply arrives, and the postcondition holds only when nothing else ran in between.
- ClientScript.Page.constructor: the page template (index.html) is not part of this model. The initial panels, the empty text area and the enabled button are assumed from it.
- ModelUtils.Load: the success `print` at model_utils.py:61 runs inside the `try`, after `_model` and `_label_encoder_classes` are set; it is assumed not to raise. If it did (a closed pipe, a stdout encoding without "✓"), `load_model` would report "Failed to load model" while the cache stays filled. The model always succeeds on a stored file.
- ModelUtils.ClassifierAdapter.LoadModel: for the same reason its promise that a failed load leaves the cache unchanged assumes the success `print` does not raise.

=== FILE: app.dfy ===
/**
 * The HTTP facade of app.py as pure decision functions. Each endpoint maps
 * its request, and the outcome of the model call it makes, to a status code
 * and a JSON body. Flask's request object is abstracted to whether the
 * request declares a JSON content type and what `request.get_json()` yields.
 */
module App {
  import opened Common
  import Config
  import Preprocessing
  import ModelUtils

  /** A value `json.loads` can build. */
  datatype Json =
    | JNull
    | JBool(b: bool)
    | JNumber(n: real)
    | JString(s: string)
    | JArray(items: seq<Json>)
    | JObject(fields: map<string, Json>)

  /** Python truthiness (`not data` is its negation). */
  predicate Truthy(j: Json)
  {
    match j
    case JNull => false
    case JBool(b) => b
    case JNumber(n) => n != 0.0
    case JString(s) => s != []
    case JArray(items) => items != []
    case JObject(fields) => fields != map[]
  }

  /** The request body as `request.get_json()` sees it: a parsed value, or a
      body it cannot parse (it then raises Bad Request). */
  datatype Payload = Parsed(json: Json) | Unparseable

  /** `request.is_json` and the body. */
  datatype Request = Request(isJson: bool, payload: Payload)

  /** An exception caught by the `except Exception` of `predict_endpoint`. */
  datatype Fault =
    | Raised(error: ModelUtils.ModelError)
    | TypeError
    | BadRequest

  /** The JSON bodies the endpoints send. */
  datatype Body =
    | PredictionBody(prediction: ModelUtils.Prediction)
    | ModelInfoBody(info: ModelUtils.ModelInfo)
    | ErrorBody(error: string)
    | ServerErrorBody(error: string, details: Option<Fault>)
    | HealthBody(healthy: bool, message: string, modelLoaded: bool, modelInfo: Option<ModelUtils.ModelInfo>)

  datatype Response = Response(status: int, body: Body)

  /** The body carries `"success": true`. */
  predicate Succeeded(b: Body)
  {
    b.PredictionBody? || b.ModelInfoBody?
  }

  /** The shared error shape `{"success": false, "error": ...}`. */
  predicate IsErrorShape(b: Body)
  {
    b.ErrorBody? || b.ServerErrorBody?
  }

  const NOT_JSON_MESSAGE: string := "Content-Type must be application/json"
  const NO_DATA_MESSAGE: string := "No JSON data provided"
  const MISSING_TEXT_MESSAGE: string := "Missing 'text' field in request"
  const NOT_A_STRING_MESSAGE: string := "Text must be a non-empty string"
  const BLANK_TEXT_MESSAGE: string := "Text cannot be empty or only whitespace"
  /** The f-string of app.py:131 with MAX_TEXT_LENGTH = 5000. */
  const TOO_LONG_MESSAGE: string := "Text exceeds maximum length of 5000 characters"
  const PREDICTION_ERROR_MESSAGE: string := "Internal server error occurred during prediction"
  const RUNNING_MESSAGE: string := "Application is running"

  // ---------------------------------------------------------------------
  // POST /predict
  // ---------------------------------------------------------------------

  /** Python's `p in s` on strings: `p` occurs at some offset of `s`. */
  predicate IsSubstring(p: string, s: string)
    decreases |s|
  {
    (|p| <= |s| && s[..|p|] == p) || (s != [] && IsSubstring(p, s[1..]))
  }

  /** `'text' in data` on a truthy value: a key test on a dict, an element
      test on a list, a substring test on a string, a TypeError on a number
      or a boolean. */
  function HasTextField(data: Json): (r: Result<bool, Fault>)
    ensures r.Failure? <==> data.JNull? || data.JBool? || data.JNumber?
    ensures data.JObject? ==> r == Success("text" in data.fields)
  {
    match data
    case JObject(fields) => Success("text" in fields)
    case JArray(items) => Success(JString("text") in items)
    case JString(s) => Success(IsSubstring("text", s))
    case _ => Failure(TypeError)
  }

  /** `data['text']`: only a dict can be indexed by a string. */
  function TextField(data: Json): (r: Result<Json, Fault>)
    ensures r.Success? <==> data.JObject? && "text" in data.fields
    ensures r.Success? ==> r.value == data.fields["text"]
  {
    match data
    case JObject(fields) => if "text" in fields then Success(fields["text"]) else Failure(TypeError)
    case _ => Failure(TypeError)
  }

  function ServerError(fault: Fault, debug: bool): Response
  {
    Response(500, ServerErrorBody(PREDICTION_ERROR_MESSAGE, if debug then Some(fault) else None))
  }

  /** The request the guards let through: a JSON object whose "text" is a
      string that is not blank and not longer than MAX_TEXT_LENGTH. */
  predicate Acceptable(req: Request)
  {
    && req.isJson
    && req.payload.Parsed?
    && req.payload.json.JObject?
    && "text" in req.payload.json.fields
    && req.payload.json.fields["text"].JString?
    && !Preprocessing.IsBlank(req.payload.json.fields["text"].s)
    && |req.payload.json.fields["text"].s| <= Config.MAX_TEXT_LENGTH
  }

  function AcceptedText(req: Request): string
    requires Acceptable(req)
  {
    req.payload.json.fields["text"].s
  }

  /** The guard chain of `predict_endpoint` (app.py:89-132): the text to
      predict on, or the response that ends the request. */
  function ValidateRequest(req: Request, debug: bool): (r: Result<string, Response>)
    ensures r.Success? <==> Acceptable(req)
    ensures r.Success? ==> r.value == AcceptedText(req)
    ensures r.Failure? ==> IsErrorShape(r.error.body) && (r.error.status == 400 || r.error.status == 500)
    ensures r.Failure? && r.error.status == 500 ==> r.error.body.ServerErrorBody? && (r.error.body.details.Some? <==> debug)
  {
    if !req.isJson then Failure(Response(400, ErrorBody(NOT_JSON_MESSAGE)))
    else
      match req.payload
      case Unparseable => Failure(ServerError(BadRequest, debug))
      case Parsed(data) =>
        if !Truthy(data) then Failure(Response(400, ErrorBody(NO_DATA_MESSAGE)))
        else
          match HasTextField(data)
          case Failure(fault) => Failure(ServerError(fault, debug))
          case Success(present) =>
            if !present then Failure(Response(400, ErrorBody(MISSING_TEXT_MESSAGE)))
            else
              match TextField(data)
              case Failure(fault) => Failure(ServerError(fault, debug))
              case Success(text) =>
                if !text.JString? || text.s == [] then Failure(Response(400, ErrorBody(NOT_A_STRING_MESSAGE)))
                else if Preprocessing.IsBlank(text.s) then Failure(Response(400, ErrorBody(BLANK_TEXT_MESSAGE)))
                else if |text.s| > Config.MAX_TEXT_LENGTH then Failure(Response(400, ErrorBody(TOO_LONG_MESSAGE)))
                else Success(text.s)
  }

  /** `predict_endpoint()` (app.py:67-160). `predict` is the model call; it
      is consulted only for a request that passes every guard. */
  function PredictEndpoint(
    req: Request,
    predict: string -> Result<ModelUtils.Prediction, ModelUtils.ModelError>,
    debug: bool): (r: Response)
    ensures !req.isJson ==> r == Response(400, ErrorBody(NOT_JSON_MESSAGE))
    ensures r.status == 200 <==> Acceptable(req) && predict(AcceptedText(req)).Success?
    ensures r.status == 200 ==> r.body == PredictionBody(predict(AcceptedText(req)).value)
    ensures r.status != 200 ==> IsErrorShape(r.body) && !Succeeded(r.body) && (r.status == 400 || r.status == 500)
    ensures r.body.ServerErrorBody? ==> (r.body.details.Some? <==> debug)
  {
    match ValidateRequest(req, debug)
    case Failure(early) => early
    case Success(text) =>
      match predict(text)
      case Success(prediction) => Response(200, PredictionBody(prediction))
      case Failure(e) =>
        if e.IsValueError() then Response(400, ErrorBody(e.Message()))
        else ServerError(Raised(e), debug)
  }

  /** Absent or empty JSON data, `{}` included, is refused before the field
      check (app.py:101-105). */
  lemma EmptyDataRejected(req: Request, predict: string -> Result<ModelUtils.Prediction, ModelUtils.ModelError>, debug: bool)
    requires req.isJson && req.payload.Parsed? && !Truthy(req.payload.json)
    ensures PredictEndpoint(req, predict, debug) == Response(400, ErrorBody(NO_DATA_MESSAGE))
  {
  }

  /** A non-empty object without "text" is refused with the missing-field
      message (app.py:107-111). */
  lemma MissingTextRejected(fields: map<string, Json>, predict: string -> Result<ModelUtils.Prediction, ModelUtils.ModelError>, debug: bool)
    requires fields != map[] && "text" !in fields
    ensures PredictEndpoint(Request(true, Parsed(JObject(fields))), predict, debug)
      == Response(400, ErrorBody(MISSING_TEXT_MESSAGE))
  {
  }

  /** The checks on the "text" value, in order (app.py:116-132): not a
      string or empty, then blank, then too long; a non-blank text of exactly
      MAX_TEXT_LENGTH characters goes to the model. */
  lemma TextValueChecks(fields: map<string, Json>, predict: string -> Result<ModelUtils.Prediction, ModelUtils.ModelError>, debug: bool)
    requires "text" in fields
    ensures var r := PredictEndpoint(Request(true, Parsed(JObject(fields))), predict, debug);
      var v := fields["text"];
      && (!v.JString? || v.s == [] ==> r == Response(400, ErrorBody(NOT_A_STRING_MESSAGE)))
      && (v.JString? && v.s != [] && Preprocessing.IsBlank(v.s) ==> r == Response(400, ErrorBody(BLANK_TEXT_MESSAGE)))
      && (v.JString? && !Preprocessing.IsBlank(v.s) && |v.s| > Config.MAX_TEXT_LENGTH ==> r == Response(400, ErrorBody(TOO_LONG_MESSAGE)))
      && (v.JString? && !Preprocessing.IsBlank(v.s) && |v.s| == Config.MAX_TEXT_LENGTH ==>
            (r.status == 200 <==> predict(v.s).Success?))
  {
  }

  /** A ValueError from `predict` is a 400 carrying its message; any other
      exception is a 500 whose details are set only in debug mode
      (app.py:145-160). */
  lemma PredictErrorsMapped(req: Request, predict: string -> Result<ModelUtils.Prediction, ModelUtils.ModelError>, debug: bool)
    requires Acceptable(req) && predict(AcceptedText(req)).Failure?
    ensures var e := predict(AcceptedText(req)).error;
      PredictEndpoint(req, predict, debug)
        == if e.IsValueError() then Response(400, ErrorBody(e.Message()))
           else Response(500, ServerErrorBody(PREDICTION_ERROR_MESSAGE, if debug then Some(Raised(e)) else None))
  {
  }

  /** A request that fails a guard gets the same answer whatever the model
      would have said. */
  lemma GuardsPrecedeModel(
    req: Request,
    predict: string -> Result<ModelUtils.Prediction, ModelUtils.ModelError>,
    other: string -> Result<ModelUtils.Prediction, ModelUtils.ModelError>,
    debug: bool)
    requires !Acceptable(req)
    ensures PredictEndpoint(req, predict, debug) == PredictEndpoint(req, other, debug)
  {
  }

  /** Bodies that are JSON but not objects follow Python's `in` and `[]`:
      a list or string that mentions "text" reaches `data['text']` and its
      TypeError is a 500; one that does not is refused as missing the field;
      a true boolean or non-zero number cannot be searched at all. */
  lemma NonObjectBodies(data: Json, predict: string -> Result<ModelUtils.Prediction, ModelUtils.ModelError>, debug: bool)
    requires Truthy(data) && !data.JObject?
    ensures var r := PredictEndpoint(Request(true, Parsed(data)), predict, debug);
      && (data.JArray? ==> r == if JString("text") in data.items then ServerError(TypeError, debug)
                                else Response(400, ErrorBody(MISSING_TEXT_MESSAGE)))
      && (data.JString? ==> r == if IsSubstring("text", data.s) then ServerError(TypeError, debug)
                                 else Response(400, ErrorBody(MISSING_TEXT_MESSAGE)))
      && (data.JBool? || data.JNumber? ==> r == ServerError(TypeError, debug))
  {
  }

  /** End to end with the model loaded: an acceptable request whose text
      normalises to nothing (only punctuation and stopwords, say) is a 400
      with the preprocessing message, and one that normalises to some text
      succeeds exactly when the classifier's answer fits the class table. */
  lemma PredictWithModel(req: Request, artifact: ModelUtils.Artifact, stop: set<string>, debug: bool)
    requires Acceptable(req)
    ensures var r := PredictEndpoint(req, ModelUtils.Predictor(artifact, stop), debug);
      var normalised := Preprocessing.Preprocess(AcceptedText(req), stop);
      && (normalised == [] ==> r == Response(400, ErrorBody(ModelUtils.EMPTY_TEXT_MESSAGE)))
      && (normalised != [] ==> (r.status == 200 <==> ModelUtils.Fits(artifact.classify(normalised))))
  {
    var predict := ModelUtils.Predictor(artifact, stop);
    ModelUtils.PredictorAnswers(artifact, AcceptedText(req), stop);
    if predict(AcceptedText(req)).Failure? {
      PredictErrorsMapped(req, predict, debug);
    }
  }

  // ---------------------------------------------------------------------
  // GET /health, GET /model-info and the error handlers
  // ---------------------------------------------------------------------

  /** `health()` (app.py:44-64): healthy with the model information when
      `get_model_info` succeeds, a 500 with its message otherwise. */
  function Health(info: Result<ModelUtils.ModelInfo, ModelUtils.ModelError>): (r: Response)
    ensures r.body.HealthBody?
    ensures r.status == 200 <==> info.Success?
    ensures r.body.modelLoaded <==> r.status == 200
    ensures r.body.healthy <==> r.status == 200
    ensures r.status != 200 ==> r.status == 500 && r.body.message == info.error.Message() && r.body.modelInfo.None?
    ensures r.status == 200 ==> r.body.modelInfo == Some(info.value)
  {
    match info
    case Success(i) => Response(200, HealthBody(true, RUNNING_MESSAGE, true, Some(i)))
    case Failure(e) => Response(500, HealthBody(false, e.Message(), false, None))
  }

  /** `model_info()` (app.py:163-181). */
  function ModelInfoEndpoint(info: Result<ModelUtils.ModelInfo, ModelUtils.ModelError>): (r: Response)
    ensures r.status == 200 <==> info.Success?
    ensures r.status == 200 ==> r.body == ModelInfoBody(info.value) && Succeeded(r.body)
    ensures r.status != 200 ==> r.status == 500 && r.body == ErrorBody(info.error.Message())
  {
    match info
    case Success(i) => Response(200, ModelInfoBody(i))
    case Failure(e) => Response(500, ErrorBody(e.Message()))
  }

  /** `not_found` (app.py:184-190). */
  function NotFound(): Response
  {
    Response(404, ErrorBody("Endpoint not found"))
  }

  /** `method_not_allowed` (app.py:193-199). */
  function MethodNotAllowed(): Response
  {
    Response(405, ErrorBody("Method not allowed"))
  }

  /** `internal_error` (app.py:202-209). */
  function InternalError(): Response
  {
    Response(500, ErrorBody("Internal server error"))
  }

  /** Every error answer of /predict, /model-info and the three handlers has
      the shape `{"success": false, "error": ...}`. */
  lemma ErrorsShareOneShape(
    req: Request,
    predict: string -> Result<ModelUtils.Prediction, ModelUtils.ModelError>,
    info: Result<ModelUtils.ModelInfo, ModelUtils.ModelError>,
    debug: bool)
    ensures var r := PredictEndpoint(req, predict, debug); r.status != 200 ==> IsErrorShape(r.body) && !Succeeded(r.body)
    ensures var r := ModelInfoEndpoint(info); r.status != 200 ==> IsErrorShape(r.body) && !Succeeded(r.body)
    ensures forall r | r in [NotFound(), MethodNotAllowed(), InternalError()] ::
      IsErrorShape(r.body) && !Succeeded(r.body) && r.status in {404, 405, 500}
  {
  }
}

=== FILE: client_script.dfy ===
/**
 * The logic of static/js/main.js that is not DOM wiring: the colour helper
 * `adjustColor`, the input guard of `handlePredict`, the character-count
 * colour bands, and the page state that `showResultsSection`,
 * `updateCharCount`, `showError`, `handleClear` and `handlePredict` update.
 */
module ClientScript {
  import opened Common
  import Config
  import Preprocessing
  import ModelUtils
  import App

  // ---------------------------------------------------------------------
  // adjustColor (main.js:338-348)
  // ---------------------------------------------------------------------

  predicate IsHexDigit(c: char)
  {
    '0' <= c <= '9' || 'a' <= c <= 'f' || 'A' <= c <= 'F'
  }

  predicate IsLowerHexDigit(c: char)
  {
    '0' <= c <= '9' || 'a' <= c <= 'f'
  }

  predicate AllHex(s: string)
  {
    forall i :: 0 <= i < |s| ==> IsHexDigit(s[i])
  }

  /** A CSS colour `#rrggbb`, as in the category colour table. */
  predicate IsHexColor(color: string)
  {
    |color| == 7 && color[0] == '#' && AllHex(color[1..])
  }

  function DigitValue(c: char): (v: nat)
    requires IsHexDigit(c)
    ensures v < 16
  {
    if '0' <= c <= '9' then c as int - '0' as int
    else if 'a' <= c <= 'f' then c as int - 'a' as int + 10
    else c as int - 'A' as int + 10
  }

  /** The lowercase digit `toString(16)` writes for `v`. */
  function Digit(v: nat): (c: char)
    requires v < 16
    ensures IsLowerHexDigit(c) && DigitValue(c) == v
  {
    if v < 10 then ('0' as int + v) as char else ('a' as int + v - 10) as char
  }

  function LowerHexDigit(c: char): char
  {
    if 'A' <= c <= 'F' then (c as int - 'A' as int + 'a' as int) as char else c
  }

  function LowerHex(s: string): string
  {
    seq(|s|, i requires 0 <= i < |s| => LowerHexDigit(s[i]))
  }

  function Pow16(k: nat): (p: nat)
    ensures p >= 1
  {
    if k == 0 then 1 else 16 * Pow16(k - 1)
  }

  /** `parseInt(s, 16)` on a string of hex digits. */
  function ParseHex(s: string): (v: nat)
    requires AllHex(s)
    ensures v < Pow16(|s|)
  {
    if s == [] then 0 else ParseHex(s[..|s| - 1]) * 16 + DigitValue(s[|s| - 1])
  }

  /** `n.toString(16)`: lowercase digits, no leading zeros. */
  function ToHex(n: nat): (r: string)
    ensures |r| >= 1
    decreases n
  {
    if n < 16 then [Digit(n)] else ToHex(n / 16) + [Digit(n % 16)]
  }

  /** The last `k` hex digits of `v`, zero-padded. */
  function FixedHex(v: nat, k: nat): (r: string)
    ensures |r| == k
    ensures forall i :: 0 <= i < |r| ==> IsLowerHexDigit(r[i])
  {
    if k == 0 then [] else FixedHex(v / 16, k - 1) + [Digit(v % 16)]
  }

  /** `num >> 16`, `num >> 8 & 0x00FF`, `num & 0x0000FF` on a non-negative
      24-bit value. */
  function Red(num: nat): nat { num / 0x10000 }
  function Green(num: nat): nat { (num / 0x100) % 0x100 }
  function Blue(num: nat): nat { num % 0x100 }

  /** `(x < 255 ? x < 1 ? 0 : x : 255)`: clamping to a byte. */
  function Clamp(x: int): (r: nat)
    ensures r <= 255
    ensures 0 <= x <= 255 ==> r == x
    ensures x < 0 ==> r == 0
    ensures x > 255 ==> r == 255
  {
    if x < 255 then (if x < 1 then 0 else x) else 255
  }

  /** `adjustColor(color, percent)` with `amt = Math.round(2.55 * percent)`
      given directly. */
  function AdjustColor(color: string, amt: int): string
    requires IsHexColor(color)
  {
    var num := ParseHex(color[1..]);
    var value := 0x1000000 + Clamp(Red(num) + amt) * 0x10000
      + Clamp(Green(num) + amt) * 0x100 + Clamp(Blue(num) + amt);
    "#" + ToHex(value)[1..]
  }

  lemma Pow16Six()
    ensures Pow16(6) == 0x1000000
  {
    assert Pow16(1) == 16;
    assert Pow16(2) == 256;
    assert Pow16(3) == 4096;
    assert Pow16(4) == 65536;
    assert Pow16(5) == 1048576;
  }

  /** Adding `16^k` before `toString(16)` and dropping the leading "1"
      writes `v` with exactly `k` digits. */
  lemma {:induction false} ToHexOfMarked(v: nat, k: nat)
    requires v < Pow16(k)
    ensures ToHex(Pow16(k) + v) == ['1'] + FixedHex(v, k)
  {
    if k > 0 {
      var n := Pow16(k) + v;
      assert n / 16 == Pow16(k - 1) + v / 16 && n % 16 == v % 16;
      ToHexOfMarked(v / 16, k - 1);
      assert ToHex(n) == ToHex(n / 16) + [Digit(n % 16)];
      assert ['1'] + FixedHex(v, k) == (['1'] + FixedHex(v / 16, k - 1)) + [Digit(v % 16)];
    }
  }

  /** `parseInt` undoes the padded encoding. */
  lemma {:induction false} ParseFixedHex(v: nat, k: nat)
    requires v < Pow16(k)
    ensures AllHex(FixedHex(v, k)) && ParseHex(FixedHex(v, k)) == v
  {
    if k > 0 {
      var s := FixedHex(v, k);
      ParseFixedHex(v / 16, k - 1);
      assert s[..|s| - 1] == FixedHex(v / 16, k - 1);
    }
  }

  /** The padded encoding of a parsed string is that string, lowercased. */
  lemma {:induction false} FixedHexOfParse(s: string)
    requires AllHex(s)
    ensures FixedHex(ParseHex(s), |s|) == LowerHex(s)
  {
    if s != [] {
      var init := s[..|s| - 1];
      var c := s[|s| - 1];
      assert AllHex(init);
      FixedHexOfParse(init);
      var v := ParseHex(s);
      assert v / 16 == ParseHex(init) && v % 16 == DigitValue(c);
      assert Digit(DigitValue(c)) == LowerHexDigit(c);
      assert LowerHex(s) == LowerHex(init) + [LowerHexDigit(c)];
    }
  }

  /** Three bytes packed as `r * 0x10000 + g * 0x100 + b`. */
  function Packed(r: nat, g: nat, b: nat): nat
  {
    r * 0x10000 + g * 0x100 + b
  }

  /** Packed bytes come back out under the shifts and masks. */
  lemma Unpack(r: nat, g: nat, b: nat)
    requires r <= 255 && g <= 255 && b <= 255
    ensures Red(Packed(r, g, b)) == r && Green(Packed(r, g, b)) == g && Blue(Packed(r, g, b)) == b
  {
    var v := Packed(r, g, b);
    assert v / 0x100 == r * 0x100 + g;
  }

  /** Every 24-bit value is its three bytes packed. */
  lemma Pack(num: nat)
    requires num < 0x1000000
    ensures num == Packed(Red(num), Green(num), Blue(num))
    ensures Red(num) <= 255
  {
  }

  /** The three clamped channels packed into one 24-bit value. */
  function Adjusted(num: nat, amt: int): nat
  {
    Packed(Clamp(Red(num) + amt), Clamp(Green(num) + amt), Clamp(Blue(num) + amt))
  }

  /** `(0x1000000 + v).toString(16).slice(1)` is `v` in six digits. */
  lemma SixDigits(v: nat)
    requires v < 0x1000000
    ensures ToHex(0x1000000 + v)[1..] == FixedHex(v, 6)
  {
    Pow16Six();
    ToHexOfMarked(v, 6);
    assert (['1'] + FixedHex(v, 6))[1..] == FixedHex(v, 6);
  }

  /** The result is "#" followed by the six padded digits of the clamped
      channels. */
  lemma AdjustColorEncodes(color: string, amt: int)
    requires IsHexColor(color)
    ensures var v := Adjusted(ParseHex(color[1..]), amt);
      v < 0x1000000 && AdjustColor(color, amt) == "#" + FixedHex(v, 6)
  {
    var num := ParseHex(color[1..]);
    var rr, gg, bb := Clamp(Red(num) + amt), Clamp(Green(num) + amt), Clamp(Blue(num) + amt);
    var v := Adjusted(num, amt);
    assert v == Packed(rr, gg, bb) == rr * 0x10000 + gg * 0x100 + bb;
    assert v < 0x1000000;
    assert AdjustColor(color, amt) == "#" + ToHex(0x1000000 + v)[1..];
    SixDigits(v);
  }

  /** For a six-digit colour the result is "#" and six lowercase hex digits. */
  lemma AdjustColorShape(color: string, amt: int)
    requires IsHexColor(color)
    ensures var r := AdjustColor(color, amt);
      |r| == 7 && r[0] == '#' && forall i :: 1 <= i < 7 ==> IsLowerHexDigit(r[i])
  {
    AdjustColorEncodes(color, amt);
  }

  lemma DropHash(digits: string)
    ensures ("#" + digits)[1..] == digits
  {
  }

  /** `parseInt` of the result's digits is the packed clamped channels. */
  lemma AdjustColorValue(color: string, amt: int)
    requires IsHexColor(color)
    ensures var r := AdjustColor(color, amt);
      AllHex(r[1..]) && ParseHex(r[1..]) == Adjusted(ParseHex(color[1..]), amt)
  {
    var v := Adjusted(ParseHex(color[1..]), amt);
    var digits := FixedHex(v, 6);
    assert AdjustColor(color, amt)[1..] == digits by {
      AdjustColorEncodes(color, amt);
      DropHash(digits);
    }
    Pow16Six();
    ParseFixedHex(v, 6);
  }

  /** Each channel of the result is the input channel plus `amt`, clamped
      to [0, 255]. */
  lemma AdjustColorChannels(color: string, amt: int)
    requires IsHexColor(color)
    ensures var r := AdjustColor(color, amt);
      var num := ParseHex(color[1..]);
      AllHex(r[1..]) &&
      var out := ParseHex(r[1..]);
      && Red(out) == Clamp(Red(num) + amt)
      && Green(out) == Clamp(Green(num) + amt)
      && Blue(out) == Clamp(Blue(num) + amt)
  {
    var num := ParseHex(color[1..]);
    var rr, gg, bb := Clamp(Red(num) + amt), Clamp(Green(num) + amt), Clamp(Blue(num) + amt);
    var r := AdjustColor(color, amt);
    AdjustColorValue(color, amt);
    assert Adjusted(num, amt) == Packed(rr, gg, bb);
    var out := ParseHex(r[1..]);
    assert out == Packed(rr, gg, bb);
    Unpack(rr, gg, bb);
    assert Red(out) == rr && Green(out) == gg && Blue(out) == bb;
  }

  /** With `amt = 0` the colour comes back lowercased. */
  lemma AdjustColorZero(color: string)
    requires IsHexColor(color)
    ensures AdjustColor(color, 0) == "#" + LowerHex(color[1..])
  {
    var num := ParseHex(color[1..]);
    Pow16Six();
    Pack(num);
    AdjustColorEncodes(color, 0);
    FixedHexOfParse(color[1..]);
  }

  /** A non-negative `amt` never darkens a channel. */
  lemma AdjustColorBrightens(color: string, amt: int)
    requires IsHexColor(color) && amt >= 0
    ensures var num := ParseHex(color[1..]);
      var r := AdjustColor(color, amt);
      AllHex(r[1..]) &&
      var out := ParseHex(r[1..]);
      Red(out) >= Red(num) && Green(out) >= Green(num) && Blue(out) >= Blue(num)
  {
    var num := ParseHex(color[1..]);
    Pow16Six();
    Pack(num);
    AdjustColorChannels(color, amt);
  }

  // ---------------------------------------------------------------------
  // The input guard of handlePredict (main.js:100-111)
  // ---------------------------------------------------------------------

  const EMPTY_INPUT_MESSAGE: string := "Please enter a headline to classify"
  const TOO_LONG_INPUT_MESSAGE: string := "Text exceeds maximum length of 5000 characters"
  const PREDICTION_FAILED_MESSAGE: string := "Prediction failed"
  const UNKNOWN_ERROR_MESSAGE: string := "Unknown error"
  const CLASSIFY_FAILED_MESSAGE: string := "Failed to classify headline. Please try again."

  /** The characters `String.prototype.trim` removes, within ASCII. */
  predicate IsJsSpace(c: char)
  {
    c == ' ' || 9 <= c as int <= 13
  }

  predicate IsJsBlank(s: string)
  {
    forall i :: 0 <= i < |s| ==> IsJsSpace(s[i])
  }

  function TrimStart(s: string): (r: string)
    ensures |r| <= |s| && r == s[|s| - |r|..]
    ensures IsJsBlank(s[..|s| - |r|])
    ensures r != [] ==> !IsJsSpace(r[0])
  {
    if s != [] && IsJsSpace(s[0]) then
      var r := TrimStart(s[1..]);
      assert s[..|s| - |r|] == [s[0]] + s[1..][..|s| - 1 - |r|];
      r
    else s
  }

  function TrimEnd(s: string): (r: string)
    ensures |r| <= |s| && r == s[..|r|]
    ensures IsJsBlank(s[|r|..])
    ensures r != [] ==> !IsJsSpace(r[|r| - 1])
  {
    if s != [] && IsJsSpace(s[|s| - 1]) then
      var init := s[..|s| - 1];
      var r := TrimEnd(init);
      BlankSuffix(s, |r|);
      r
    else s
  }

  /** Dropping a blank last character keeps the blank tail blank. */
  lemma BlankSuffix(s: string, k: nat)
    requires s != [] && IsJsSpace(s[|s| - 1]) && k <= |s| - 1
    requires IsJsBlank(s[..|s| - 1][k..])
    ensures IsJsBlank(s[k..])
  {
    assert forall i :: k <= i < |s| - 1 ==> s[i] == s[..|s| - 1][k..][i - k];
  }

  /** `s` is a blank prefix of length `k`, then `r`, then a blank suffix. */
  predicate Frames(s: string, k: int, r: string)
  {
    0 <= k <= |s| - |r| && IsJsBlank(s[..k]) && s[k..k + |r|] == r && IsJsBlank(s[k + |r|..])
  }

  /** `s.trim()`: the part of `s` between its leading and trailing spaces. */
  function Trim(s: string): (r: string)
    ensures |r| <= |s|
    ensures r == [] <==> IsJsBlank(s)
    ensures r != [] ==> !IsJsSpace(r[0]) && !IsJsSpace(r[|r| - 1])
    ensures exists k :: Frames(s, k, r)
  {
    var t := TrimStart(s);
    assert s == s[..|s| - |t|] + t;
    TrimFrame(s);
    TrimEnd(t)
  }

  /** What `trim` removes is a blank prefix and a blank suffix. */
  lemma TrimFrame(s: string)
    ensures exists k :: Frames(s, k, TrimEnd(TrimStart(s)))
  {
    var t := TrimStart(s);
    var k := |s| - |t|;
    var r := TrimEnd(t);
    Framed(s, k, r);
    assert Frames(s, k, r);
  }

  /** Where a prefix of the suffix `s[k..]` sits in `s`. */
  lemma Framed(s: string, k: nat, r: string)
    requires k <= |s| && |r| <= |s| - k && r == s[k..][..|r|]
    ensures s[k..k + |r|] == r && s[k + |r|..] == s[k..][|r|..]
  {
  }

  /** Leading whitespace before a text that does not start with whitespace
      is exactly what `TrimStart` removes. */
  lemma {:induction false} TrimStartOfPadded(p: string, t: string)
    requires IsJsBlank(p) && (t == [] || !IsJsSpace(t[0]))
    ensures TrimStart(p + t) == t
  {
    if p == [] {
      assert p + t == t;
    } else {
      assert (p + t)[1..] == p[1..] + t;
      TrimStartOfPadded(p[1..], t);
    }
  }

  /** Trailing whitespace after a text that does not end with whitespace is
      exactly what `TrimEnd` removes. */
  lemma {:induction false} TrimEndOfPadded(t: string, q: string)
    requires IsJsBlank(q) && (t == [] || !IsJsSpace(t[|t| - 1]))
    ensures TrimEnd(t + q) == t
  {
    if q == [] {
      assert t + q == t;
    } else {
      var q' := q[..|q| - 1];
      assert (t + q)[..|t + q| - 1] == t + q';
      TrimEndOfPadded(t, q');
    }
  }

  /** `trim` is determined by the padding: whatever blank text surrounds a
      text with no whitespace at either end, trimming gives that text. */
  lemma TrimOfPadded(p: string, r: string, q: string)
    requires IsJsBlank(p) && IsJsBlank(q)
    requires r == [] || (!IsJsSpace(r[0]) && !IsJsSpace(r[|r| - 1]))
    ensures Trim(p + r + q) == r
  {
    if r == [] {
      assert IsJsBlank(p + r + q);
    } else {
      assert p + r + q == p + (r + q);
      TrimStartOfPadded(p, r + q);
      TrimEndOfPadded(r, q);
    }
  }

  /** The guard of `handlePredict`: the trimmed text to send, or the message
      shown instead of sending anything. */
  function ValidateInput(raw: string): (r: Result<string, string>)
    ensures r.Success? <==> !IsJsBlank(raw) && |Trim(raw)| <= Config.MAX_TEXT_LENGTH
    ensures r.Success? ==> r.value == Trim(raw) && r.value != []
    ensures r.Failure? ==> r.error == (if IsJsBlank(raw) then EMPTY_INPUT_MESSAGE else TOO_LONG_INPUT_MESSAGE)
  {
    var text := Trim(raw);
    if text == [] then Failure(EMPTY_INPUT_MESSAGE)
    else if |text| > 5000 then Failure(TOO_LONG_INPUT_MESSAGE)
    else Success(text)
  }

  /** The request `handlePredict` sends: JSON content type and the body
      `{"text": text}`. */
  function RequestFor(text: string): App.Request
  {
    App.Request(true, App.Parsed(App.JObject(map["text" := App.JString(text)])))
  }

  /** What the client sends passes every guard of the server except one:
      the server also counts the ASCII separators 0x1c-0x1f as whitespace,
      so a text made only of those passes the client and is refused by the
      server. */
  lemma ClientAndServerGuards(raw: string)
    requires ValidateInput(raw).Success?
    ensures var text := ValidateInput(raw).value;
      App.Acceptable(RequestFor(text)) <==> !Preprocessing.IsBlank(text)
  {
  }

  /** A text made of one 0x1c separator. */
  const SEPARATOR_ONLY: string := [28 as char]

  /** The client sends a lone 0x1c separator as it is. */
  lemma SeparatorPassesClient()
    ensures ValidateInput(SEPARATOR_ONLY) == Success(SEPARATOR_ONLY)
  {
    assert !IsJsSpace(SEPARATOR_ONLY[0]);
    assert Trim(SEPARATOR_ONLY) == SEPARATOR_ONLY;
  }

  /** The server refuses that same text as blank. */
  lemma SeparatorRefusedByServer(predict: string -> Result<ModelUtils.Prediction, ModelUtils.ModelError>, debug: bool)
    ensures App.PredictEndpoint(RequestFor(SEPARATOR_ONLY), predict, debug) == App.Response(400, App.ErrorBody(App.BLANK_TEXT_MESSAGE))
  {
    assert Preprocessing.IsBlank(SEPARATOR_ONLY);
    App.TextValueChecks(map["text" := App.JString(SEPARATOR_ONLY)], predict, debug);
  }

  // ---------------------------------------------------------------------
  // Reading the reply to POST /predict (main.js:118-143)
  // ---------------------------------------------------------------------

  /** `a || b` on strings. */
  function OrElse(a: string, b: string): string
  {
    if a != [] then a else b
  }

  /** `data.error`, with `undefined` read as "". */
  function ErrorField(body: App.Body): string
  {
    if App.IsErrorShape(body) then body.error else ""
  }

  /** The `try` block of `handlePredict` after the guard: `reply` is what
      `fetch` and `response.json()` produce, or the message of the error
      they reject with. The result is the prediction to display, or the
      message of the error thrown. */
  function ReadReply(reply: Result<App.Response, string>): (r: Result<ModelUtils.Prediction, string>)
    ensures reply.Failure? ==> r == Failure(reply.error)
    ensures r.Success? <==> reply.Success? && 200 <= reply.value.status < 300 && reply.value.body.PredictionBody?
    ensures r.Success? ==> r.value == reply.value.body.prediction
    ensures r.Failure? && reply.Success? ==> r.error != []
  {
    match reply
    case Failure(message) => Failure(message)
    case Success(response) =>
      if !(200 <= response.status < 300) then Failure(OrElse(ErrorField(response.body), PREDICTION_FAILED_MESSAGE))
      else if response.body.PredictionBody? then Success(response.body.prediction)
      else Failure(OrElse(ErrorField(response.body), UNKNOWN_ERROR_MESSAGE))
  }

  /** Against the server's own endpoint, the client displays exactly the
      predictions the server returns and otherwise shows the server's error
      text, which is never empty. */
  lemma ClientReportsServerAnswer(
    text: string,
    predict: string -> Result<ModelUtils.Prediction, ModelUtils.ModelError>,
    debug: bool)
    ensures var response := App.PredictEndpoint(RequestFor(text), predict, debug);
      var outcome := ReadReply(Success(response));
      && (outcome.Success? <==> response.status == 200)
      && (outcome.Success? ==> outcome == Success(predict(text).value))
      && (outcome.Failure? ==> outcome.error == response.body.error && outcome.error != [])
  {
  }

  // ---------------------------------------------------------------------
  // updateCharCount (main.js:68-80)
  // ---------------------------------------------------------------------

  const COUNT_RED: string := "#e74c3c"
  const COUNT_ORANGE: string := "#f39c12"
  const COUNT_BLUE: string := "#4a90e2"

  /** The colour of the character counter for `count` characters. */
  function CountColor(count: int): (r: string)
    ensures r == COUNT_RED <==> count > 4500
    ensures r == COUNT_ORANGE <==> 4000 < count <= 4500
    ensures r == COUNT_BLUE <==> count <= 4000
  {
    if count > 4500 then COUNT_RED
    else if count > 4000 then COUNT_ORANGE
    else COUNT_BLUE
  }

  // ---------------------------------------------------------------------
  // The page
  // ---------------------------------------------------------------------

  /** The four results panels. */
  datatype Panel = EmptyPanel | LoadingPanel | ErrorPanel | SuccessPanel

  /** `style.display`: 'none' or 'block'. */
  datatype Display = DisplayNone | DisplayBlock

  /** The DOM fields and the global `currentPrediction` that the handlers
      update. */
  class Page {
    /** `textInput.value` */
    var textValue: string
    /** `charCount.textContent` and `charCount.style.color` */
    var charCount: nat
    var charCountColor: string
    /** `style.display` of resultsEmpty, resultsLoading, resultsError and
        resultsSuccess */
    var emptyDisplay: Display
    var loadingDisplay: Display
    var errorDisplay: Display
    var successDisplay: Display
    /** `errorMessage.textContent` */
    var errorMessage: string
    /** `predictBtn.disabled` */
    var predictDisabled: bool
    var currentPrediction: Option<ModelUtils.Prediction>

    function DisplayOf(p: Panel): Display
      reads this`emptyDisplay, this`loadingDisplay, this`errorDisplay, this`successDisplay
    {
      match p
      case EmptyPanel => emptyDisplay
      case LoadingPanel => loadingDisplay
      case ErrorPanel => errorDisplay
      case SuccessPanel => successDisplay
    }

    /** Exactly `section` is displayed among the four panels, or none of
        them when `section` is None. */
    predicate OnlyShown(section: Option<Panel>)
      reads this`emptyDisplay, this`loadingDisplay, this`errorDisplay, this`successDisplay
    {
      && emptyDisplay == (if section == Some(EmptyPanel) then DisplayBlock else DisplayNone)
      && loadingDisplay == (if section == Some(LoadingPanel) then DisplayBlock else DisplayNone)
      && errorDisplay == (if section == Some(ErrorPanel) then DisplayBlock else DisplayNone)
      && successDisplay == (if section == Some(SuccessPanel) then DisplayBlock else DisplayNone)
    }

    /** At most one results panel is visible. */
    ghost predicate Valid()
      reads this`emptyDisplay, this`loadingDisplay, this`errorDisplay, this`successDisplay
    {
      || OnlyShown(None)
      || OnlyShown(Some(EmptyPanel))
      || OnlyShown(Some(LoadingPanel))
      || OnlyShown(Some(ErrorPanel))
      || OnlyShown(Some(SuccessPanel))
    }

    /** `OnlyShown` read panel by panel: `section` is the one panel whose
        display is 'block'. */
    lemma OnlyShownMeansExactlyOne(section: Option<Panel>)
      requires OnlyShown(section)
      ensures forall p: Panel :: DisplayOf(p) == DisplayBlock <==> section == Some(p)
    {
      forall p: Panel ensures DisplayOf(p) == DisplayBlock <==> section == Some(p) {
        match p
        case EmptyPanel =>
        case LoadingPanel =>
        case ErrorPanel =>
        case SuccessPanel =>
      }
    }

    /** A freshly loaded page: empty input, the empty-results panel shown. */
    constructor ()
      ensures Valid() && OnlyShown(Some(EmptyPanel))
      ensures textValue == [] && currentPrediction.None? && !predictDisabled
    {
      textValue := [];
      charCount := 0;
      charCountColor := COUNT_BLUE;
      emptyDisplay := DisplayBlock;
      loadingDisplay := DisplayNone;
      errorDisplay := DisplayNone;
      successDisplay := DisplayNone;
      errorMessage := [];
      predictDisabled := false;
      currentPrediction := None;
    }

    /** `showResultsSection(section)`: hide all four panels, then show
        `section` if there is one. */
    method ShowResultsSection(section: Option<Panel>)
      modifies this`emptyDisplay, this`loadingDisplay, this`errorDisplay, this`successDisplay
      ensures OnlyShown(section) && Valid()
    {
      emptyDisplay := DisplayNone;
      loadingDisplay := DisplayNone;
      errorDisplay := DisplayNone;
      successDisplay := DisplayNone;
      match section
      case None =>
      case Some(EmptyPanel) => emptyDisplay := DisplayBlock;
      case Some(LoadingPanel) => loadingDisplay := DisplayBlock;
      case Some(ErrorPanel) => errorDisplay := DisplayBlock;
      case Some(SuccessPanel) => successDisplay := DisplayBlock;
    }

    /** `updateCharCount()` */
    method UpdateCharCount()
      modifies this`charCount, this`charCountColor
      ensures charCount == |textValue| && charCountColor == CountColor(|textValue|)
    {
      charCount := |textValue|;
      charCountColor := CountColor(charCount);
    }

    /** `showError(message)`, up to scheduling its timeout. */
    method ShowError(message: string)
      modifies this`emptyDisplay, this`loadingDisplay, this`errorDisplay, this`successDisplay, this`errorMessage
      ensures OnlyShown(Some(ErrorPanel)) && Valid() && errorMessage == message
    {
      ShowResultsSection(Some(ErrorPanel));
      errorMessage := message;
    }

    /** The callback `showError` schedules: five seconds later, the error
        panel gives way to the empty one if it is still shown. */
    method ErrorTimeout()
      requires Valid()
      modifies this`emptyDisplay, this`loadingDisplay, this`errorDisplay, this`successDisplay
      ensures old(errorDisplay) == DisplayBlock ==> OnlyShown(Some(EmptyPanel))
      ensures old(errorDisplay) != DisplayBlock ==> unchanged(this)
      ensures Valid()
    {
      if errorDisplay == DisplayBlock {
        ShowResultsSection(Some(EmptyPanel));
      }
    }

    /** `handleClear()` */
    method HandleClear()
      modifies this`textValue, this`charCount, this`charCountColor, this`currentPrediction
      modifies this`emptyDisplay, this`loadingDisplay, this`errorDisplay, this`successDisplay
      ensures textValue == [] && charCount == 0 && charCountColor == COUNT_BLUE
      ensures OnlyShown(Some(EmptyPanel)) && Valid() && currentPrediction.None?
    {
      textValue := [];
      UpdateCharCount();
      ShowResultsSection(Some(EmptyPanel));
      currentPrediction := None;
    }

    /** What the page shows once a reply has been read off as `outcome`:
        the prediction on the success panel with the error message left as
        it was, or the error's message on the error panel with the previous
        prediction kept. */
    predicate ShowsOutcome(outcome: Result<ModelUtils.Prediction, string>, previous: Option<ModelUtils.Prediction>, previousMessage: string)
      reads this`emptyDisplay, this`loadingDisplay, this`errorDisplay, this`successDisplay
      reads this`errorMessage, this`currentPrediction
    {
      match outcome
      case Success(prediction) =>
        OnlyShown(Some(SuccessPanel)) && currentPrediction == Some(prediction) && errorMessage == previousMessage
      case Failure(message) =>
        && OnlyShown(Some(ErrorPanel))
        && errorMessage == OrElse(message, CLASSIFY_FAILED_MESSAGE)
        && currentPrediction == previous
    }

    /** `handlePredict()`. `reply` is what the request to /predict yields
        and is consulted only when a request is sent; `sent` is the text
        sent, if any. */
    method HandlePredict(reply: Result<App.Response, string>) returns (sent: Option<string>)
      modifies this`emptyDisplay, this`loadingDisplay, this`errorDisplay, this`successDisplay
      modifies this`errorMessage, this`predictDisabled, this`currentPrediction
      ensures sent == match ValidateInput(old(textValue))
        case Success(text) => Some(text)
        case Failure(_) => None
      ensures sent.None? ==>
        && OnlyShown(Some(ErrorPanel))
        && errorMessage == ValidateInput(old(textValue)).error
        && predictDisabled == old(predictDisabled)
        && currentPrediction == old(currentPrediction)
      ensures sent.Some? ==> !predictDisabled && ShowsOutcome(ReadReply(reply), old(currentPrediction), old(errorMessage))
      ensures Valid()
    {
      var check := ValidateInput(textValue);
      match check
      case Failure(message) =>
        ShowError(message);
        sent := None;
      case Success(text) =>
        Request(reply);
        sent := Some(text);
    }

    /** The part of `handlePredict` after validation: show the spinner and
        disable the button, await the reply, show its outcome and enable the
        button again. */
    method Request(reply: Result<App.Response, string>)
      modifies this`emptyDisplay, this`loadingDisplay, this`errorDisplay, this`successDisplay
      modifies this`errorMessage, this`predictDisabled, this`currentPrediction
      ensures !predictDisabled && ShowsOutcome(ReadReply(reply), old(currentPrediction), old(errorMessage)) && Valid()
    {
      ghost var previous, previousMessage := currentPrediction, errorMessage;
      ShowResultsSection(Some(LoadingPanel));
      predictDisabled := true;
      assert currentPrediction == previous && errorMessage == previousMessage;
      ReceiveReply(reply);
      assert ShowsOutcome(ReadReply(reply), previous, previousMessage);
      predictDisabled := false;
    }

    /** The `try`/`catch` of `handlePredict` once the request is under way:
        display the prediction, or show the error's message. */
    method ReceiveReply(reply: Result<App.Response, string>)
      modifies this`emptyDisplay, this`loadingDisplay, this`errorDisplay, this`successDisplay
      modifies this`errorMessage, this`currentPrediction
      ensures ShowsOutcome(ReadReply(reply), old(currentPrediction), old(errorMessage)) && Valid()
    {
      match ReadReply(reply)
      case Success(prediction) =>
        currentPrediction := Some(prediction);
        ShowResultsSection(Some(SuccessPanel));
      case Failure(message) =>
        ShowError(OrElse(message, CLASSIFY_FAILED_MESSAGE));
    }
  }
}

=== FILE: common.dfy ===
/** Failure-carrying wrappers shared by the whole model. */
module Common {

  datatype Option<+T> = None | Some(value: T)

  /** The Python code raises; the model returns `Failure` instead. */
  datatype Result<+T, +E> = Success(value: T) | Failure(error: E)

  function Min(a: int, b: int): int
  {
    if a <= b then a else b
  }
}

=== FILE: config.dfy ===
/** The constants of config.py that the modelled code reads (config.py:13, config.py:28). */
module Config {

  /** Longest text the service accepts or considers, in characters. */
  const MAX_TEXT_LENGTH: nat := 5000

  /** How many (label, probability) pairs a prediction reports. */
  const TOP_K_PREDICTIONS: nat := 5
}

=== FILE: model_utils.dfy ===
/**
 * The classifier adapter of model_utils.py: the two-state model cache
 * (`load_model`, `get_model_info`) and `predict`, which normalises the text,
 * asks the classifier, and shapes its answer into a label, a confidence and
 * the top-K (label, probability) pairs in order of decreasing probability.
 *
 * The scikit-learn pipeline is an oracle: a function from normalised text to
 * an `Answer` (the predicted index and the probability vector, or an
 * exception). What is on disk at MODEL_PATH is a `ModelFile` parameter.
 */
module ModelUtils {
  import opened Common
  import Config
  import Preprocessing

  /** The label encoder's classes in index order (model_utils.py:59). */
  const LABEL_CLASSES: seq<string> := ["ENTERTAINMENT", "POLITICS", "STYLE & BEAUTY", "TRAVEL", "WELLNESS"]

  const EMPTY_TEXT_MESSAGE: string := "Text is empty after preprocessing. Please provide meaningful text."

  /** Stands for the text of numpy's IndexError when the classifier's answer
      does not fit the class table or the probability vector. */
  const INDEX_ERROR: string := "index out of bounds"

  /** One entry of `all_probabilities`; `category` is its "label" key. */
  datatype LabelProb = LabelProb(category: string, probability: real)

  /** The dictionary `predict` returns; `category` is its "label" key. */
  datatype Prediction = Prediction(
    category: string,
    confidence: real,
    allProbabilities: seq<LabelProb>,
    preprocessedText: string)

  /** What the pipeline's `predict` / `predict_proba` give for one text. */
  datatype Answer =
    | Answer(index: int, probabilities: seq<real>)
    | Raised(reason: string)

  /** The object `joblib.load` returns. */
  datatype Artifact = Artifact(classify: string -> Answer)

  /** What is found at MODEL_PATH. */
  datatype ModelFile = Missing | Unreadable(reason: string) | Stored(artifact: Artifact)

  /** The exceptions `load_model` and `predict` raise. */
  datatype ModelError =
    | ModelNotFound(path: string)
    | LoadFailed(reason: string)
    | EmptyAfterPreprocessing
    | PredictionFailed(reason: string)
  {
    /** Only the empty-text error is a `ValueError`. */
    predicate IsValueError()
    {
      EmptyAfterPreprocessing?
    }

    /** `str(e)` */
    function Message(): (m: string)
      ensures m != []
    {
      match this
      case ModelNotFound(path) =>
        "Model file not found at " + path + ". Please ensure the model is exported from the notebook."
      case LoadFailed(reason) => "Failed to load model: " + reason
      case EmptyAfterPreprocessing => EMPTY_TEXT_MESSAGE
      case PredictionFailed(reason) => "Prediction failed: " + reason
    }
  }

  /** The dictionary `get_model_info` returns. */
  datatype ModelInfo = ModelInfo(
    modelType: string,
    vectorizer: string,
    classifier: string,
    ngramRange: string,
    categories: seq<string>,
    preprocessingSteps: seq<string>)

  function Info(categories: seq<string>): ModelInfo
  {
    ModelInfo("Scikit-learn Pipeline", "TfidfVectorizer", "MultinomialNB", "(1, 2)", categories,
      ["1. Lowercase conversion", "2. Punctuation removal", "3. Stopword removal (NLTK English)"])
  }

  // ---------------------------------------------------------------------
  // Sorting by probability
  // ---------------------------------------------------------------------

  predicate SortedByProbability(s: seq<LabelProb>)
  {
    forall i, j :: 0 <= i < j < |s| ==> s[i].probability >= s[j].probability
  }

  /** Puts `x` after every entry whose probability is at least its own. */
  function InsertByProbability(s: seq<LabelProb>, x: LabelProb): (r: seq<LabelProb>)
    ensures |r| == |s| + 1
  {
    if s == [] then [x]
    else if s[0].probability >= x.probability then [s[0]] + InsertByProbability(s[1..], x)
    else [x] + s
  }

  lemma {:induction false} InsertIsPermutation(s: seq<LabelProb>, x: LabelProb)
    ensures multiset(InsertByProbability(s, x)) == multiset(s) + multiset{x}
  {
    if s != [] && s[0].probability >= x.probability {
      InsertIsPermutation(s[1..], x);
      assert s == [s[0]] + s[1..];
    }
  }

  /** `sort(key=probability, reverse=True)`. Python's sort is stable and
      `reverse=True` keeps entries with equal keys in their original order, so
      the entries are inserted from left to right, each after its equals. */
  function SortByProbability(s: seq<LabelProb>): seq<LabelProb>
  {
    if s == [] then []
    else InsertByProbability(SortByProbability(s[..|s| - 1]), s[|s| - 1])
  }

  /** The entries of `s` whose probability is `v`, in order. */
  function Ties(s: seq<LabelProb>, v: real): seq<LabelProb>
  {
    if s == [] then []
    else Ties(s[..|s| - 1], v) + (if s[|s| - 1].probability == v then [s[|s| - 1]] else [])
  }

  /** An entry at least as probable as every entry of a sorted sequence can
      go in front of it. */
  lemma SortedCons(h: LabelProb, t: seq<LabelProb>)
    requires SortedByProbability(t)
    requires forall j :: 0 <= j < |t| ==> h.probability >= t[j].probability
    ensures SortedByProbability([h] + t)
  {
    var r := [h] + t;
    forall i, j | 0 <= i < j < |r| ensures r[i].probability >= r[j].probability {
      assert r[j] == t[j - 1];
      if i > 0 {
        assert r[i] == t[i - 1];
      }
    }
  }

  lemma {:induction false} InsertSorted(s: seq<LabelProb>, x: LabelProb)
    requires SortedByProbability(s)
    ensures SortedByProbability(InsertByProbability(s, x))
  {
    if s == [] {
      assert InsertByProbability(s, x) == [x];
    } else if s[0].probability >= x.probability {
      var tail := InsertByProbability(s[1..], x);
      assert InsertByProbability(s, x) == [s[0]] + tail;
      SortedTail(s);
      InsertSorted(s[1..], x);
      InsertIsPermutation(s[1..], x);
      forall j | 0 <= j < |tail| ensures s[0].probability >= tail[j].probability {
        assert tail[j] in multiset(tail);
        assert tail[j] == x || tail[j] in multiset(s[1..]);
      }
      SortedCons(s[0], tail);
    } else {
      assert InsertByProbability(s, x) == [x] + s;
      SortedTail(s);
      SortedCons(x, s);
    }
  }

  /** Where the insertion lands: after a prefix of entries at least as
      probable as `x`, before the first less probable one. */
  lemma {:induction false} InsertAt(s: seq<LabelProb>, x: LabelProb, k: nat)
    requires k <= |s|
    requires forall m :: 0 <= m < k ==> s[m].probability >= x.probability
    requires k < |s| ==> s[k].probability < x.probability
    ensures InsertByProbability(s, x) == s[..k] + [x] + s[k..]
  {
    if k == 0 {
      assert s[..0] == [] && s[0..] == s;
    } else {
      var t := s[1..];
      InsertAt(t, x, k - 1);
      assert InsertByProbability(s, x) == [s[0]] + (t[..k - 1] + [x] + t[k - 1..]);
      SplitBehindHead(s, x, k);
    }
  }

  /** Splitting the tail of `s` at `k - 1` is splitting `s` at `k`. */
  lemma SplitBehindHead(s: seq<LabelProb>, x: LabelProb, k: nat)
    requires 0 < k <= |s|
    ensures [s[0]] + (s[1..][..k - 1] + [x] + s[1..][k - 1..]) == s[..k] + [x] + s[k..]
  {
    assert [s[0]] + s[1..][..k - 1] == s[..k];
    assert s[1..][k - 1..] == s[k..];
  }

  lemma {:induction false} TiesAppend(a: seq<LabelProb>, b: seq<LabelProb>, v: real)
    ensures Ties(a + b, v) == Ties(a, v) + Ties(b, v)
  {
    if b == [] {
      assert a + b == a;
    } else {
      var init, last := b[..|b| - 1], b[|b| - 1];
      var extra := if last.probability == v then [last] else [];
      assert (a + b)[..|a + b| - 1] == a + init && (a + b)[|a + b| - 1] == last;
      TiesAppend(a, init, v);
      assert Ties(a + b, v) == (Ties(a, v) + Ties(init, v)) + extra;
    }
  }

  lemma TiesCons(x: LabelProb, t: seq<LabelProb>, v: real)
    ensures Ties([x] + t, v) == (if x.probability == v then [x] else []) + Ties(t, v)
  {
    TiesAppend([x], t, v);
    assert [x][..0] == [];
  }

  lemma {:induction false} NoTies(s: seq<LabelProb>, v: real)
    requires forall i :: 0 <= i < |s| ==> s[i].probability < v
    ensures Ties(s, v) == []
  {
    if s != [] {
      NoTies(s[..|s| - 1], v);
    }
  }

  lemma SortedTail(s: seq<LabelProb>)
    requires s != [] && SortedByProbability(s)
    ensures SortedByProbability(s[1..])
    ensures forall i :: 0 <= i < |s| ==> s[i].probability <= s[0].probability
  {
  }

  lemma {:induction false} InsertTies(s: seq<LabelProb>, x: LabelProb, v: real)
    requires SortedByProbability(s)
    ensures Ties(InsertByProbability(s, x), v) == Ties(s, v) + (if x.probability == v then [x] else [])
    decreases |s|, 1
  {
    var extra := if x.probability == v then [x] else [];
    if s == [] {
      assert Ties([x], v) == extra + Ties([], v);
    } else {
      SortedTail(s);
      InsertTiesStep(s, x, v);
    }
  }

  /** One step of InsertTies, with the sortedness of `s` reduced to what
      the step needs. */
  lemma {:induction false} InsertTiesStep(s: seq<LabelProb>, x: LabelProb, v: real)
    requires s != [] && SortedByProbability(s[1..])
    requires forall i :: 0 <= i < |s| ==> s[i].probability <= s[0].probability
    ensures Ties(InsertByProbability(s, x), v) == Ties(s, v) + (if x.probability == v then [x] else [])
    decreases |s|, 0
  {
    var extra := if x.probability == v then [x] else [];
    if s[0].probability >= x.probability {
      var rest := s[1..];
      var tail := InsertByProbability(rest, x);
      InsertTies(rest, x, v);
      TiesBehindHead(s[0], rest, tail, extra, v);
      assert [s[0]] + rest == s;
      assert InsertByProbability(s, x) == [s[0]] + tail;
    } else {
      assert InsertByProbability(s, x) == [x] + s;
      TiesInFront(x, s, v);
    }
  }

  /** Putting the same entry in front of two sequences keeps an equation
      between their ties. */
  lemma TiesBehindHead(h: LabelProb, rest: seq<LabelProb>, tail: seq<LabelProb>, extra: seq<LabelProb>, v: real)
    requires Ties(tail, v) == Ties(rest, v) + extra
    ensures Ties([h] + tail, v) == Ties([h] + rest, v) + extra
  {
    var head := if h.probability == v then [h] else [];
    TiesCons(h, tail, v);
    TiesCons(h, rest, v);
    Preprocessing.AppendAssociates(head, Ties(rest, v), extra);
  }

  /** An entry more probable than all of `s`, put in front of it, comes
      after all of `s` among the ties. */
  lemma TiesInFront(x: LabelProb, s: seq<LabelProb>, v: real)
    requires forall i :: 0 <= i < |s| ==> s[i].probability < x.probability
    ensures Ties([x] + s, v) == Ties(s, v) + (if x.probability == v then [x] else [])
  {
    TiesCons(x, s, v);
    if x.probability == v {
      NoTies(s, v);
      assert [x] + [] == [] + [x];
    } else {
      assert [] + Ties(s, v) == Ties(s, v) + [];
    }
  }

  lemma {:induction false} SortByProbabilityIsSorted(s: seq<LabelProb>)
    ensures SortedByProbability(SortByProbability(s))
  {
    if s != [] {
      SortByProbabilityIsSorted(s[..|s| - 1]);
      InsertSorted(SortByProbability(s[..|s| - 1]), s[|s| - 1]);
    }
  }

  lemma {:induction false} SortByProbabilityIsPermutation(s: seq<LabelProb>)
    ensures multiset(SortByProbability(s)) == multiset(s)
  {
    if s != [] {
      var init, last := s[..|s| - 1], s[|s| - 1];
      assert multiset(SortByProbability(s)) == multiset(init) + multiset{last} by {
        SortByProbabilityIsPermutation(init);
        InsertIsPermutation(SortByProbability(init), last);
      }
      assert multiset(s) == multiset(init) + multiset{last} by {
        assert s == init + [last];
      }
    }
  }

  /** Stability: the entries with any one probability keep their input order. */
  lemma {:induction false} SortByProbabilityIsStable(s: seq<LabelProb>, v: real)
    ensures Ties(SortByProbability(s), v) == Ties(s, v)
  {
    if s != [] {
      var init, last := s[..|s| - 1], s[|s| - 1];
      SortByProbabilityIsStable(init, v);
      SortByProbabilityIsSorted(init);
      InsertTies(SortByProbability(init), last, v);
    }
  }

  /** `all_probs.sort(key=lambda x: x['probability'], reverse=True)`
      (model_utils.py:161), in place, as a stable insertion sort. */
  method SortByProbabilityInPlace(a: array<LabelProb>)
    modifies a
    ensures a[..] == SortByProbability(old(a[..]))
  {
    ghost var input := a[..];
    var i := 0;
    while i < a.Length
      invariant 0 <= i <= a.Length
      invariant a[..i] == SortByProbability(input[..i])
      invariant a[i..] == input[i..]
    {
      SortByProbabilityIsSorted(input[..i]);
      InsertInPlace(a, i);
      assert input[..i + 1][..i] == input[..i];
      assert a[i + 1..] == input[i + 1..];
      i := i + 1;
    }
    assert input[..a.Length] == input;
  }

  /** One pass of the insertion sort: moves `a[i]` left past the entries of
      the sorted prefix `a[..i]` that are less probable than it. */
  method InsertInPlace(a: array<LabelProb>, i: nat)
    requires i < a.Length
    requires SortedByProbability(a[..i])
    modifies a
    ensures a[..i + 1] == InsertByProbability(old(a[..i]), old(a[i]))
    ensures a[i + 1..] == old(a[i + 1..])
  {
    ghost var sorted := a[..i];
    ghost var rest := a[i + 1..];
    var key := a[i];
    var j := ShiftLessProbable(a, i);
    a[j] := key;
    ghost var result := a[..i + 1];
    assert forall m :: 0 <= m < j ==> result[m] == sorted[m];
    assert forall m :: j < m <= i ==> result[m] == sorted[m - 1];
    StopsAfterEqual(sorted, key, j);
    InsertAt(sorted, key, j);
    Shifted(sorted, key, j, result);
    assert forall m :: 0 <= m < |rest| ==> a[i + 1..][m] == rest[m];
  }

  /** The shifting loop of one insertion pass: moves the entries before
      `a[i]` that are less probable than it one place right and returns the
      hole left for it. */
  method ShiftLessProbable(a: array<LabelProb>, i: nat) returns (j: nat)
    requires i < a.Length
    modifies a
    ensures j <= i
    ensures forall m :: 0 <= m < j ==> a[m] == old(a[m])
    ensures forall m :: j < m <= i ==> a[m] == old(a[m - 1])
    ensures forall m :: j <= m < i ==> old(a[m]).probability < old(a[i]).probability
    ensures j > 0 ==> a[j - 1].probability >= old(a[i]).probability
    ensures forall m :: i < m < a.Length ==> a[m] == old(a[m])
  {
    var key := a[i];
    j := i;
    while j > 0 && a[j - 1].probability < key.probability
      invariant 0 <= j <= i
      invariant forall m :: 0 <= m < j ==> a[m] == old(a[m])
      invariant forall m :: j < m <= i ==> a[m] == old(a[m - 1])
      invariant forall m :: j <= m < i ==> old(a[m]).probability < key.probability
      invariant forall m :: i < m < a.Length ==> a[m] == old(a[m])
    {
      a[j] := a[j - 1];
      j := j - 1;
    }
  }

  /** The shifting loop stops behind an entry at least as probable as the
      key; in a sorted prefix, so is every entry before it. */
  lemma StopsAfterEqual(sorted: seq<LabelProb>, key: LabelProb, j: nat)
    requires SortedByProbability(sorted) && j <= |sorted|
    requires j > 0 ==> sorted[j - 1].probability >= key.probability
    ensures forall m :: 0 <= m < j ==> sorted[m].probability >= key.probability
  {
  }

  /** The array contents after the shifting loop, stated on sequences. */
  lemma Shifted(sorted: seq<LabelProb>, key: LabelProb, j: nat, result: seq<LabelProb>)
    requires j <= |sorted| && |result| == |sorted| + 1
    requires forall m :: 0 <= m < j ==> result[m] == sorted[m]
    requires result[j] == key
    requires forall m :: j < m <= |sorted| ==> result[m] == sorted[m - 1]
    ensures result == sorted[..j] + [key] + sorted[j..]
  {
    var inserted := sorted[..j] + [key] + sorted[j..];
    forall m | 0 <= m < |result| ensures result[m] == inserted[m] {
      if m < j {
        assert inserted[m] == sorted[m];
      } else if m > j {
        assert inserted[m] == sorted[m - 1];
      }
    }
  }

  // ---------------------------------------------------------------------
  // Shaping the classifier's answer
  // ---------------------------------------------------------------------

  /** Subscripting a numpy array of length `n` with `i` succeeds exactly
      for -n <= i < n. */
  predicate InBounds(i: int, n: nat)
  {
    -(n as int) <= i < n
  }

  /** The element `xs[i]` reads: a negative index counts from the end. */
  function Position(i: int, n: nat): (p: nat)
    requires InBounds(i, n)
    ensures p < n && (p == i || p == n + i)
  {
    if i < 0 then n + i else i
  }

  /** The unsorted (label, probability) list (model_utils.py:153-159). */
  function Pairs(probabilities: seq<real>): (r: seq<LabelProb>)
    requires |probabilities| >= |LABEL_CLASSES|
  {
    seq(|LABEL_CLASSES|, i requires 0 <= i < |LABEL_CLASSES| => LabelProb(LABEL_CLASSES[i], probabilities[i]))
  }

  /** `all_probs[:TOP_K_PREDICTIONS]` */
  function TopK(s: seq<LabelProb>): (r: seq<LabelProb>)
    ensures |r| == Min(Config.TOP_K_PREDICTIONS, |s|) && r == s[..|r|]
    ensures |s| <= Config.TOP_K_PREDICTIONS ==> r == s
  {
    s[..Min(Config.TOP_K_PREDICTIONS, |s|)]
  }

  /** The classifier answered with an index and a probability vector that
      numpy can subscript as `predict` does. */
  predicate Fits(answer: Answer)
  {
    answer.Answer? && InBounds(answer.index, |LABEL_CLASSES|) && |answer.probabilities| >= |LABEL_CLASSES|
  }

  /** Shaping succeeds exactly on answers that fit the class table; any
      other answer is the "Prediction failed" error, carrying the
      classifier's own message when it raised. */
  lemma ShapeSucceedsIffFits(preprocessed: string, answer: Answer)
    ensures Shape(preprocessed, answer).Success? <==> Fits(answer)
    ensures !Fits(answer) ==> Shape(preprocessed, answer).Failure? && Shape(preprocessed, answer).error.PredictionFailed?
    ensures answer.Raised? ==> Shape(preprocessed, answer) == Failure(PredictionFailed(answer.reason))
  {
  }

  /** The `try` block of `predict` (model_utils.py:141-174) for one answer. */
  function Shape(preprocessed: string, answer: Answer): Result<Prediction, ModelError>
  {
    match answer
    case Raised(reason) => Failure(PredictionFailed(reason))
    case Answer(index, probabilities) =>
      if InBounds(index, |LABEL_CLASSES|) && |probabilities| >= |LABEL_CLASSES| then
        Success(Prediction(
          LABEL_CLASSES[Position(index, |LABEL_CLASSES|)],
          probabilities[Position(index, |probabilities|)],
          TopK(SortByProbability(Pairs(probabilities))), preprocessed))
      else
        Failure(PredictionFailed(INDEX_ERROR))
  }

  /** `predict(text)` once the model is loaded (model_utils.py:136-174). */
  function PredictSpec(artifact: Artifact, text: string, stop: set<string>): Result<Prediction, ModelError>
  {
    var preprocessed := Preprocessing.Preprocess(text, stop);
    if Preprocessing.IsBlank(preprocessed) then Failure(EmptyAfterPreprocessing)
    else Shape(preprocessed, artifact.classify(preprocessed))
  }

  /** `predict` with the model loaded, as the function the endpoint calls. */
  function Predictor(artifact: Artifact, stop: set<string>): string -> Result<Prediction, ModelError>
  {
    t => PredictSpec(artifact, t, stop)
  }

  /** The endpoint's view of `predict`: an empty normalised text is the
      ValueError, and otherwise the answer succeeds exactly when the
      classifier's answer fits the class table. */
  lemma PredictorAnswers(artifact: Artifact, text: string, stop: set<string>)
    ensures var normalised := Preprocessing.Preprocess(text, stop);
      var r := Predictor(artifact, stop)(text);
      && (normalised == [] ==> r == Failure(EmptyAfterPreprocessing))
      && (normalised != [] ==> (r.Success? <==> Fits(artifact.classify(normalised))))
  {
    var normalised := Preprocessing.Preprocess(text, stop);
    Preprocessing.PreprocessBlankIffEmpty(text, stop);
    if normalised != [] {
      ShapeSucceedsIffFits(normalised, artifact.classify(normalised));
    }
  }

  /** `predict` after its load step: normalise, reject blank text, ask the
      classifier, build the pairs, sort them in place and keep the top K. */
  method Infer(artifact: Artifact, text: string, stop: set<string>) returns (r: Result<Prediction, ModelError>)
    ensures r == PredictSpec(artifact, text, stop)
  {
    var preprocessed := Preprocessing.Preprocess(text, stop);
    if Preprocessing.IsBlank(preprocessed) {
      return Failure(EmptyAfterPreprocessing);
    }
    r := ShapeAnswer(preprocessed, artifact.classify(preprocessed));
  }

  /** The `try` block of `predict`: look up the label and the confidence,
      build the (label, probability) pairs in an array, sort it in place and
      keep the top K. */
  method ShapeAnswer(preprocessed: string, answer: Answer) returns (r: Result<Prediction, ModelError>)
    ensures r == Shape(preprocessed, answer)
  {
    match answer {
      case Raised(reason) =>
        return Failure(PredictionFailed(reason));
      case Answer(index, probabilities) =>
        if !(InBounds(index, |LABEL_CLASSES|) && |probabilities| >= |LABEL_CLASSES|) {
          return Failure(PredictionFailed(INDEX_ERROR));
        }
        var allProbs := new LabelProb[|LABEL_CLASSES|](
          i requires 0 <= i < |LABEL_CLASSES| => LabelProb(LABEL_CLASSES[i], probabilities[i]));
        assert allProbs[..] == Pairs(probabilities);
        SortByProbabilityInPlace(allProbs);
        var top := allProbs[..Min(Config.TOP_K_PREDICTIONS, allProbs.Length)];
        var category := LABEL_CLASSES[Position(index, |LABEL_CLASSES|)];
        var confidence := probabilities[Position(index, |probabilities|)];
        return Success(Prediction(category, confidence, top, preprocessed));
    }
  }

  /** `predict` fails with the validation error exactly when the normalised
      text is empty, and then its answer does not depend on the model. */
  lemma PredictRejectsExactlyEmptyText(artifact: Artifact, other: Artifact, text: string, stop: set<string>)
    ensures PredictSpec(artifact, text, stop) == Failure(EmptyAfterPreprocessing)
      <==> Preprocessing.Preprocess(text, stop) == []
    ensures Preprocessing.Preprocess(text, stop) == [] ==>
      PredictSpec(artifact, text, stop) == PredictSpec(other, text, stop)
  {
    Preprocessing.PreprocessBlankIffEmpty(text, stop);
  }

  /** A successful prediction: the label and confidence are the classifier's
      index looked up in the class table and the probability vector (a
      negative index counting from the end, as numpy does); the
      probability list is the (label, probability) pairs sorted by
      decreasing probability, ties in index order, cut to the top K. */
  lemma PredictSuccess(artifact: Artifact, text: string, stop: set<string>)
    requires PredictSpec(artifact, text, stop).Success?
    ensures var p := PredictSpec(artifact, text, stop).value;
      var preprocessed := Preprocessing.Preprocess(text, stop);
      var answer := artifact.classify(preprocessed);
      && preprocessed != []
      && p.preprocessedText == preprocessed
      && answer.Answer?
      && -|LABEL_CLASSES| <= answer.index < |LABEL_CLASSES| <= |answer.probabilities|
      && (answer.index >= 0 ==> p.category == LABEL_CLASSES[answer.index])
      && (answer.index < 0 ==> p.category == LABEL_CLASSES[|LABEL_CLASSES| + answer.index])
      && p.category in LABEL_CLASSES
      && (answer.index >= 0 ==> p.confidence == answer.probabilities[answer.index])
      && (answer.index < 0 ==> p.confidence == answer.probabilities[|answer.probabilities| + answer.index])
      && |p.allProbabilities| == Min(Config.TOP_K_PREDICTIONS, |LABEL_CLASSES|)
      && SortedByProbability(p.allProbabilities)
      && multiset(p.allProbabilities) == multiset(Pairs(answer.probabilities))
      && (forall v :: Ties(p.allProbabilities, v) == Ties(Pairs(answer.probabilities), v))
  {
    var preprocessed := Preprocessing.Preprocess(text, stop);
    Preprocessing.PreprocessBlankIffEmpty(text, stop);
    ShapeSuccess(preprocessed, artifact.classify(preprocessed));
  }

  /** What a successful shaping of the classifier's answer holds. */
  lemma ShapeSuccess(preprocessed: string, answer: Answer)
    requires Shape(preprocessed, answer).Success?
    ensures var p := Shape(preprocessed, answer).value;
      && p.preprocessedText == preprocessed
      && answer.Answer?
      && -|LABEL_CLASSES| <= answer.index < |LABEL_CLASSES| <= |answer.probabilities|
      && (answer.index >= 0 ==> p.category == LABEL_CLASSES[answer.index])
      && (answer.index < 0 ==> p.category == LABEL_CLASSES[|LABEL_CLASSES| + answer.index])
      && p.category in LABEL_CLASSES
      && (answer.index >= 0 ==> p.confidence == answer.probabilities[answer.index])
      && (answer.index < 0 ==> p.confidence == answer.probabilities[|answer.probabilities| + answer.index])
      && |p.allProbabilities| == Min(Config.TOP_K_PREDICTIONS, |LABEL_CLASSES|)
      && SortedByProbability(p.allProbabilities)
      && multiset(p.allProbabilities) == multiset(Pairs(answer.probabilities))
      && (forall v :: Ties(p.allProbabilities, v) == Ties(Pairs(answer.probabilities), v))
  {
    var pairs := Pairs(answer.probabilities);
    var sorted := SortByProbability(pairs);
    SortByProbabilityIsSorted(pairs);
    SortByProbabilityIsPermutation(pairs);
    assert |sorted| == |LABEL_CLASSES|;
    assert TopK(sorted) == sorted;
    forall v ensures Ties(sorted, v) == Ties(pairs, v) {
      SortByProbabilityIsStable(pairs, v);
    }
  }

  /** numpy reads index -1 as the last entry: an answer of -1 is the last
      class with the last probability, not an error. */
  lemma NegativeIndexCountsFromEnd(preprocessed: string, probabilities: seq<real>)
    requires |probabilities| == |LABEL_CLASSES|
    ensures var r := Shape(preprocessed, Answer(-1, probabilities));
      r.Success? && r.value.category == "WELLNESS" && r.value.confidence == probabilities[4]
  {
  }

  /** Once normalisation leaves some text, `predict` fails with a
      prediction error exactly when the classifier raised or answered outside
      the five-class table. */
  lemma PredictFailsOnBadAnswer(artifact: Artifact, text: string, stop: set<string>)
    requires Preprocessing.Preprocess(text, stop) != []
    ensures var answer := artifact.classify(Preprocessing.Preprocess(text, stop));
      PredictSpec(artifact, text, stop).Failure?
      <==> answer.Raised? || !(-|LABEL_CLASSES| <= answer.index < |LABEL_CLASSES| <= |answer.probabilities|)
  {
    Preprocessing.PreprocessBlankIffEmpty(text, stop);
  }

  // ---------------------------------------------------------------------
  // The model cache
  // ---------------------------------------------------------------------

  /** What `load_model` returns or raises, given the cached model and what
      is at the model path (model_utils.py:44-65). */
  function Load(cached: Option<Artifact>, path: string, file: ModelFile): (r: Result<Artifact, ModelError>)
    ensures r.Success? <==> cached.Some? || file.Stored?
    ensures cached.Some? ==> r == Success(cached.value)
    ensures cached.None? && file.Missing? ==> r == Failure(ModelNotFound(path))
    ensures cached.None? && file.Unreadable? ==> r == Failure(LoadFailed(file.reason))
    ensures cached.None? && file.Stored? ==> r == Success(file.artifact)
    ensures r.Failure? ==> !r.error.IsValueError()
  {
    match cached
    case Some(artifact) => Success(artifact)
    case None =>
      match file
      case Missing => Failure(ModelNotFound(path))
      case Unreadable(reason) => Failure(LoadFailed(reason))
      case Stored(artifact) => Success(artifact)
  }

  /** Once a model is cached, loading returns it whatever is on disk. */
  lemma LoadIsIdempotent(cached: Option<Artifact>, path: string, file: ModelFile, later: ModelFile)
    requires Load(cached, path, file).Success?
    ensures Load(Some(Load(cached, path, file).value), path, later) == Load(cached, path, file)
  {
  }

  /** The module globals `_model` and `_label_encoder_classes`. */
  class ClassifierAdapter {
    /** MODEL_PATH */
    const modelPath: string
    /** `_model` */
    var model: Option<Artifact>
    /** `_label_encoder_classes` */
    var labelClasses: Option<seq<string>>

    /** The class table is set exactly when the model is. */
    ghost predicate Valid()
      reads this
    {
      labelClasses == if model.Some? then Some(LABEL_CLASSES) else None
    }

    constructor (path: string)
      ensures Valid() && modelPath == path && model.None?
    {
      modelPath := path;
      model := None;
      labelClasses := None;
    }

    /** `load_model()` (model_utils.py:28-65). */
    method LoadModel(file: ModelFile) returns (r: Result<Artifact, ModelError>)
      requires Valid()
      modifies this
      ensures Valid()
      ensures r == Load(old(model), modelPath, file)
      ensures model == if r.Success? then Some(r.value) else old(model)
    {
      if model.Some? {
        return Success(model.value);
      }
      match file {
        case Missing =>
          return Failure(ModelNotFound(modelPath));
        case Unreadable(reason) =>
          return Failure(LoadFailed(reason));
        case Stored(artifact) =>
          model := Some(artifact);
          labelClasses := Some(LABEL_CLASSES);
          return Success(artifact);
      }
    }

    /** `predict(text)` (model_utils.py:105-174): load the model if needed,
        then run the prediction with it. */
    method Predict(text: string, stop: set<string>, file: ModelFile) returns (r: Result<Prediction, ModelError>)
      requires Valid()
      modifies this
      ensures Valid()
      ensures var loaded := Load(old(model), modelPath, file);
        && model == (if loaded.Success? then Some(loaded.value) else old(model))
        && r == (if loaded.Success? then PredictSpec(loaded.value, text, stop) else Failure(loaded.error))
    {
      if model.None? {
        var loaded := LoadModel(file);
        if loaded.Failure? {
          return Failure(loaded.error);
        }
      }
      r := Infer(model.value, text, stop);
    }

    /** `get_model_info()` (model_utils.py:177-200): load the model if
        needed; the categories are then always the five class labels. */
    method GetModelInfo(file: ModelFile) returns (r: Result<ModelInfo, ModelError>)
      requires Valid()
      modifies this
      ensures Valid()
      ensures var loaded := Load(old(model), modelPath, file);
        && model == (if loaded.Success? then Some(loaded.value) else old(model))
        && r == (if loaded.Success? then Success(Info(LABEL_CLASSES)) else Failure(loaded.error))
    {
      if model.None? {
        var loaded := LoadModel(file);
        if loaded.Failure? {
          return Failure(loaded.error);
        }
      }
      var categories := if labelClasses.Some? then labelClasses.value else [];
      return Success(Info(categories));
    }
  }
}

=== FILE: preprocessing.dfy ===
/**
 * The text normaliser `preprocess_text` of model_utils.py: truncate to
 * MAX_TEXT_LENGTH, lowercase, delete every character that is neither a word
 * character nor whitespace, split on whitespace, drop stopwords and join the
 * remaining words with single spaces.
 *
 * Characters are ASCII: a word character (`\w`) is one of [A-Za-z0-9_], and
 * whitespace is what Python's `str.isspace` accepts below 128. The stopword
 * set is a parameter.
 */
module Preprocessing {
  import Config

  // ---------------------------------------------------------------------
  // Character classes
  // ---------------------------------------------------------------------

  /** Python whitespace (regex `\s`, `str.split()`, `str.strip()`) below 128:
      tab, line feed, vertical tab, form feed, carriage return, the four
      information separators 0x1c-0x1f, and the space. */
  predicate IsSpace(c: char)
  {
    c == ' ' || 9 <= c as int <= 13 || 28 <= c as int <= 31
  }

  predicate IsUpper(c: char)
  {
    'A' <= c <= 'Z'
  }

  /** A word character that `str.lower` leaves alone. */
  predicate IsLowerWordChar(c: char)
  {
    'a' <= c <= 'z' || '0' <= c <= '9' || c == '_'
  }

  /** Regex `\w` below 128. */
  predicate IsWordChar(c: char)
  {
    IsUpper(c) || IsLowerWordChar(c)
  }

  /** `not s.strip()`: the string is empty or all whitespace. */
  predicate IsBlank(s: string)
  {
    forall i :: 0 <= i < |s| ==> IsSpace(s[i])
  }

  function ToLower(c: char): char
  {
    if IsUpper(c) then (c as int + 32) as char else c
  }

  // ---------------------------------------------------------------------
  // The pipeline steps
  // ---------------------------------------------------------------------

  /** `text[:MAX_TEXT_LENGTH]` when the text is longer than the limit. */
  function Truncate(s: string): (r: string)
    ensures |r| <= Config.MAX_TEXT_LENGTH && |r| <= |s|
    ensures r == s[..|r|]
    ensures |s| <= Config.MAX_TEXT_LENGTH ==> r == s
    ensures |s| > Config.MAX_TEXT_LENGTH ==> |r| == Config.MAX_TEXT_LENGTH
  {
    if |s| > Config.MAX_TEXT_LENGTH then s[..Config.MAX_TEXT_LENGTH] else s
  }

  /** `str.lower()` */
  function Lower(s: string): (r: string)
    ensures |r| == |s|
    ensures forall i :: 0 <= i < |r| ==> !IsUpper(r[i])
    ensures forall i :: 0 <= i < |r| ==> IsWordChar(r[i]) == IsWordChar(s[i])
    ensures forall i :: 0 <= i < |r| && !IsUpper(s[i]) ==> r[i] == s[i]
    ensures forall i :: 0 <= i < |r| && IsUpper(s[i]) ==> r[i] as int == s[i] as int + 32
  {
    seq(|s|, i requires 0 <= i < |s| => ToLower(s[i]))
  }

  /** `re.sub(r'[^\w\s]', '', s)`: keeps exactly the word characters and the
      whitespace, in their order. */
  function RemovePunctuation(s: string): (r: string)
    ensures |r| <= |s|
    ensures forall i :: 0 <= i < |r| ==> (IsWordChar(r[i]) || IsSpace(r[i])) && r[i] in s
  {
    if s == [] then []
    else (if IsWordChar(s[0]) || IsSpace(s[0]) then [s[0]] else []) + RemovePunctuation(s[1..])
  }

  /** Length of the longest prefix of `s` without whitespace. */
  function WordLength(s: string): (n: nat)
    ensures n <= |s|
    ensures forall i :: 0 <= i < n ==> !IsSpace(s[i])
    ensures n < |s| ==> IsSpace(s[n])
  {
    if s == [] || IsSpace(s[0]) then 0 else 1 + WordLength(s[1..])
  }

  /** `str.split()` with no separator: the maximal runs of non-whitespace. */
  function Split(s: string): (words: seq<string>)
    ensures forall k :: 0 <= k < |words| ==> words[k] != []
    ensures forall k, i :: 0 <= k < |words| && 0 <= i < |words[k]| ==> !IsSpace(words[k][i]) && words[k][i] in s
    decreases |s|
  {
    if s == [] then []
    else if IsSpace(s[0]) then Split(s[1..])
    else
      var n := WordLength(s);
      [s[..n]] + Split(s[n..])
  }

  /** `[word for word in words if word not in STOP_WORDS]` */
  function RemoveStopWords(words: seq<string>, stop: set<string>): (r: seq<string>)
    ensures |r| <= |words|
    ensures forall w :: w in r <==> w in words && w !in stop
    ensures forall w :: multiset(r)[w] == if w in stop then 0 else multiset(words)[w]
  {
    if words == [] then []
    else
      assert words == [words[0]] + words[1..];
      (if words[0] in stop then [] else [words[0]]) + RemoveStopWords(words[1..], stop)
  }

  /** `' '.join(words)` */
  function Join(words: seq<string>): string
  {
    if words == [] then []
    else if |words| == 1 then words[0]
    else words[0] + " " + Join(words[1..])
  }

  /** The words the pipeline keeps, before they are joined. */
  function KeptWords(text: string, stop: set<string>): seq<string>
  {
    RemoveStopWords(Split(RemovePunctuation(Lower(Truncate(text)))), stop)
  }

  /** `preprocess_text(text)` (model_utils.py:68-102). */
  function Preprocess(text: string, stop: set<string>): string
  {
    if text == [] then []
    else Join(KeptWords(text, stop))
  }

  // ---------------------------------------------------------------------
  // The shape of the output
  // ---------------------------------------------------------------------

  /** A word the pipeline can emit: non-empty, lowercase word characters. */
  predicate IsToken(w: string)
  {
    w != [] && forall i :: 0 <= i < |w| ==> IsLowerWordChar(w[i])
  }

  /** Lowercase word characters and single spaces, with no leading, trailing
      or doubled space. */
  predicate IsNormalized(s: string)
  {
    && (forall i :: 0 <= i < |s| ==> IsLowerWordChar(s[i]) || s[i] == ' ')
    && (s != [] ==> s[0] != ' ' && s[|s| - 1] != ' ')
    && (forall i :: 0 <= i < |s| - 1 ==> s[i] != ' ' || s[i + 1] != ' ')
  }

  /** `a` is an order-preserving subsequence of `b`. */
  predicate IsSubsequence(a: seq<string>, b: seq<string>)
    decreases |b|
  {
    a == [] || (b != [] && if a[0] == b[0] then IsSubsequence(a[1..], b[1..]) else IsSubsequence(a, b[1..]))
  }

  // ---------------------------------------------------------------------
  // Lemmas about the steps
  // ---------------------------------------------------------------------

  lemma JoinCons(w: string, rest: seq<string>)
    ensures Join([w] + rest) == if rest == [] then w else w + " " + Join(rest)
  {
    assert ([w] + rest)[1..] == rest;
  }

  /** Splitting text made of lowercase word characters and whitespace yields tokens. */
  lemma {:induction false} SplitYieldsTokens(s: string)
    requires forall i :: 0 <= i < |s| ==> IsLowerWordChar(s[i]) || IsSpace(s[i])
    ensures forall w | w in Split(s) :: IsToken(w)
  {
    forall w | w in Split(s) ensures IsToken(w) {
      var k :| 0 <= k < |Split(s)| && Split(s)[k] == w;
      forall i | 0 <= i < |w| ensures IsLowerWordChar(w[i]) {
        assert !IsSpace(w[i]) && w[i] in s;
      }
    }
  }

  /** A word without whitespace followed by whitespace (or nothing) is one word. */
  lemma WordLengthOfToken(w: string, rest: string)
    requires IsToken(w)
    requires rest == [] || IsSpace(rest[0])
    ensures WordLength(w + rest) == |w|
  {
    var s := w + rest;
    assert forall i :: 0 <= i < |w| ==> s[i] == w[i] && !IsSpace(s[i]);
    assert |w| < |s| ==> IsSpace(s[|w|]);
  }

  /** Joining tokens and splitting again gives the tokens back. */
  lemma {:induction false} SplitJoin(words: seq<string>)
    requires forall w | w in words :: IsToken(w)
    ensures Split(Join(words)) == words
  {
    if words != [] {
      var w := words[0];
      var rest := words[1..];
      assert words == [w] + rest;
      JoinCons(w, rest);
      if rest == [] {
        WordLengthOfToken(w, []);
        assert w + [] == w;
        assert w[..|w|] == w && w[|w|..] == [];
      } else {
        var s := Join(words);
        var tail := " " + Join(rest);
        assert s == w + tail;
        WordLengthOfToken(w, tail);
        assert s[..|w|] == w && s[|w|..] == tail;
        assert tail[1..] == Join(rest);
        SplitJoin(rest);
      }
    }
  }

  lemma {:induction false} JoinNonEmpty(words: seq<string>)
    requires forall w | w in words :: IsToken(w)
    ensures words != [] ==> Join(words) != []
  {
    if words != [] {
      assert words[0] in words;
    }
  }

  /** Joined tokens are in normal form. */
  lemma {:induction false} JoinNormalized(words: seq<string>)
    requires forall w | w in words :: IsToken(w)
    ensures IsNormalized(Join(words))
  {
    if words != [] {
      var w := words[0];
      assert w in words && IsToken(w);
      if |words| > 1 {
        var rest := words[1..];
        var j := Join(rest);
        JoinNormalized(rest);
        JoinNonEmpty(rest);
        var s := Join(words);
        assert s == w + " " + j;
        assert s[0] == w[0] && s[|s| - 1] == j[|j| - 1];
        forall i | 0 <= i < |s| ensures IsLowerWordChar(s[i]) || s[i] == ' ' {
          if i < |w| { assert s[i] == w[i]; }
          else if i > |w| { assert s[i] == j[i - |w| - 1]; }
        }
        forall i | 0 <= i < |s| - 1 ensures s[i] != ' ' || s[i + 1] != ' ' {
          if i < |w| { assert s[i] == w[i]; }
          else if i == |w| { assert s[i + 1] == j[0]; }
          else { assert s[i] == j[i - |w| - 1] && s[i + 1] == j[i - |w|]; }
        }
      }
    }
  }

  /** Splitting and joining again never makes text longer. */
  lemma {:induction false} JoinSplitLength(s: string)
    ensures |Join(Split(s))| <= |s|
    decreases |s|
  {
    if s != [] {
      if IsSpace(s[0]) {
        JoinSplitLength(s[1..]);
      } else {
        var n := WordLength(s);
        var rest := s[n..];
        JoinCons(s[..n], Split(rest));
        if rest != [] {
          assert IsSpace(rest[0]);
          JoinSplitLength(rest[1..]);
        }
      }
    }
  }

  /** Dropping words never makes the joined text longer. */
  lemma {:induction false} JoinRemoveStopWordsLength(words: seq<string>, stop: set<string>)
    ensures |Join(RemoveStopWords(words, stop))| <= |Join(words)|
  {
    if words != [] {
      var w := words[0];
      var rest := words[1..];
      assert words == [w] + rest;
      JoinCons(w, rest);
      JoinRemoveStopWordsLength(rest, stop);
      var kept := RemoveStopWords(rest, stop);
      if w !in stop {
        assert RemoveStopWords(words, stop) == [w] + kept;
        JoinCons(w, kept);
      } else {
        assert RemoveStopWords(words, stop) == kept;
      }
    }
  }

  lemma {:induction false} RemoveStopWordsSubsequence(words: seq<string>, stop: set<string>)
    ensures IsSubsequence(RemoveStopWords(words, stop), words)
  {
    if words != [] {
      var kept := RemoveStopWords(words[1..], stop);
      RemoveStopWordsSubsequence(words[1..], stop);
      if words[0] !in stop {
        assert ([words[0]] + kept)[1..] == kept;
      } else {
        assert RemoveStopWords(words, stop) == kept;
        if kept != [] {
          assert kept[0] in kept;
        }
      }
    }
  }

  lemma {:induction false} RemoveStopWordsKeepsAll(words: seq<string>, stop: set<string>)
    requires forall w | w in words :: w !in stop
    ensures RemoveStopWords(words, stop) == words
  {
    if words != [] {
      RemoveStopWordsKeepsAll(words[1..], stop);
    }
  }

  lemma {:induction false} RemovePunctuationKeepsAll(s: string)
    requires forall i :: 0 <= i < |s| ==> IsWordChar(s[i]) || IsSpace(s[i])
    ensures RemovePunctuation(s) == s
  {
    if s != [] {
      RemovePunctuationKeepsAll(s[1..]);
    }
  }

  /** Normalised text has no upper-case letter and no punctuation. */
  lemma NormalizedCharacters(s: string)
    requires IsNormalized(s)
    ensures forall i :: 0 <= i < |s| ==> !IsUpper(s[i]) && (IsWordChar(s[i]) || IsSpace(s[i]))
  {
    forall i | 0 <= i < |s|
      ensures !IsUpper(s[i]) && (IsWordChar(s[i]) || IsSpace(s[i]))
    {
      assert IsLowerWordChar(s[i]) || s[i] == ' ';
    }
  }

  /** Lowercasing leaves text without upper-case letters unchanged. */
  lemma LowerKeepsLowerCase(s: string)
    requires forall i :: 0 <= i < |s| ==> !IsUpper(s[i])
    ensures Lower(s) == s
  {
  }

  /** Deleting punctuation works character by character: a word character
      or whitespace is kept, anything else is dropped. */
  lemma RemovePunctuationChar(c: char)
    ensures RemovePunctuation([c]) == if IsWordChar(c) || IsSpace(c) then [c] else []
  {
  }

  /** Deleting punctuation distributes over concatenation, so every kept
      character stays, in order. */
  lemma {:induction false} RemovePunctuationAppend(a: string, b: string)
    ensures RemovePunctuation(a + b) == RemovePunctuation(a) + RemovePunctuation(b)
  {
    if a == [] {
      assert a + b == b;
    } else {
      assert (a + b)[1..] == a[1..] + b;
      RemovePunctuationAppend(a[1..], b);
    }
  }

  /** The first word of `a + t` is the first word of `a` when `a` already
      holds whitespace or `t` starts with it. */
  lemma {:induction false} WordLengthAppend(a: string, t: string)
    requires WordLength(a) < |a| || t == [] || IsSpace(t[0])
    ensures WordLength(a + t) == WordLength(a)
  {
    if a == [] {
      assert a + t == t;
    } else if !IsSpace(a[0]) {
      assert (a + t)[1..] == a[1..] + t;
      WordLengthAppend(a[1..], t);
    }
  }

  /** A non-empty run without whitespace splits into itself. */
  lemma SplitWord(w: string)
    requires w != [] && forall i :: 0 <= i < |w| ==> !IsSpace(w[i])
    ensures Split(w) == [w]
  {
    assert WordLength(w) == |w|;
    assert w[..|w|] == w && w[|w|..] == [];
  }

  /** The first word of `a + t` is the first word of `a`, when `a` starts
      with one that `t` does not continue. */
  lemma SplitFirstWord(a: string, t: string)
    requires a != [] && !IsSpace(a[0])
    requires WordLength(a) < |a| || t == [] || IsSpace(t[0])
    ensures Split(a + t) == [a[..WordLength(a)]] + Split(a[WordLength(a)..] + t)
  {
    var n := WordLength(a);
    WordLengthAppend(a, t);
    assert (a + t)[..n] == a[..n];
    DropAppend(a, t, n);
  }

  lemma DropAppend(a: string, t: string, n: nat)
    requires n <= |a|
    ensures (a + t)[n..] == a[n..] + t
  {
  }

  /** A whitespace character separates: the words of `a + [c] + b` are the
      words of `a` followed by the words of `b`. */
  lemma SplitAtSpace(a: string, c: char, b: string)
    requires IsSpace(c)
    ensures Split(a + [c] + b) == Split(a) + Split(b)
  {
    assert a + [c] + b == a + ([c] + b);
    SplitBeforeSpace(a, [c] + b);
    assert ([c] + b)[1..] == b;
  }

  lemma {:induction false} SplitBeforeSpace(a: string, t: string)
    requires t != [] && IsSpace(t[0])
    ensures Split(a + t) == Split(a) + Split(t[1..])
    decreases |a|
  {
    if a == [] {
      assert a + t == t;
    } else if IsSpace(a[0]) {
      DropAppend(a, t, 1);
      SplitBeforeSpace(a[1..], t);
    } else {
      var n := WordLength(a);
      SplitFirstWord(a, t);
      SplitBeforeSpace(a[n..], t);
      AppendAssociates([a[..n]], Split(a[n..]), Split(t[1..]));
    }
  }

  /** Concatenation is associative, stated once for the solver's sake. */
  lemma AppendAssociates<T>(x: seq<T>, y: seq<T>, z: seq<T>)
    ensures x + (y + z) == (x + y) + z
  {
  }

  /** After lowercasing and deleting punctuation, every character is a
      lowercase word character or whitespace. */
  lemma CleanedCharacters(t: string)
    ensures forall i :: 0 <= i < |RemovePunctuation(Lower(t))| ==>
      IsLowerWordChar(RemovePunctuation(Lower(t))[i]) || IsSpace(RemovePunctuation(Lower(t))[i])
  {
  }

  /** The kept words are tokens, none of them a stopword, and they are the
      cleaned words in their original order with the stopwords left out. */
  lemma KeptWordsAreTokens(text: string, stop: set<string>)
    ensures forall w | w in KeptWords(text, stop) :: IsToken(w) && w !in stop
    ensures IsSubsequence(KeptWords(text, stop), Split(RemovePunctuation(Lower(Truncate(text)))))
  {
    var cleaned := RemovePunctuation(Lower(Truncate(text)));
    CleanedCharacters(Truncate(text));
    SplitYieldsTokens(cleaned);
    RemoveStopWordsSubsequence(Split(cleaned), stop);
  }

  // ---------------------------------------------------------------------
  // Properties of preprocess_text
  // ---------------------------------------------------------------------

  /** Empty input gives empty output (model_utils.py:83-84). */
  lemma PreprocessEmpty(stop: set<string>)
    ensures Preprocess([], stop) == []
  {
  }

  /** Only the first MAX_TEXT_LENGTH characters matter (model_utils.py:87-88). */
  lemma PreprocessOnlyPrefixMatters(text: string, stop: set<string>)
    requires |text| >= Config.MAX_TEXT_LENGTH
    ensures Preprocess(text, stop) == Preprocess(text[..Config.MAX_TEXT_LENGTH], stop)
  {
  }

  /** The output is in normal form, no word of it is a stopword, and its
      words are the cleaned input words, in order, without the stopwords. */
  lemma PreprocessShape(text: string, stop: set<string>)
    ensures IsNormalized(Preprocess(text, stop))
    ensures |Preprocess(text, stop)| <= Config.MAX_TEXT_LENGTH
    ensures text != [] ==> Split(Preprocess(text, stop)) == KeptWords(text, stop)
    ensures forall w | w in Split(Preprocess(text, stop)) :: IsToken(w) && w !in stop
    ensures IsSubsequence(Split(Preprocess(text, stop)), Split(RemovePunctuation(Lower(Truncate(text)))))
  {
    if text != [] {
      var t := Truncate(text);
      var cleaned := RemovePunctuation(Lower(t));
      var kept := KeptWords(text, stop);
      KeptWordsAreTokens(text, stop);
      JoinNormalized(kept);
      SplitJoin(kept);
      JoinRemoveStopWordsLength(Split(cleaned), stop);
      JoinSplitLength(cleaned);
    }
  }

  /** The output is blank exactly when it is empty: `predict`'s
      `not preprocessed.strip()` is an emptiness test. */
  lemma PreprocessBlankIffEmpty(text: string, stop: set<string>)
    ensures IsBlank(Preprocess(text, stop)) <==> Preprocess(text, stop) == []
  {
    PreprocessShape(text, stop);
    var r := Preprocess(text, stop);
    if r != [] {
      assert !IsSpace(r[0]);
    }
  }

  /** Normalising twice is normalising once. */
  lemma PreprocessIdempotent(text: string, stop: set<string>)
    ensures Preprocess(Preprocess(text, stop), stop) == Preprocess(text, stop)
  {
    var y := Preprocess(text, stop);
    if y != [] {
      PreprocessShape(text, stop);
      var kept := KeptWords(text, stop);
      assert Truncate(y) == y;
      NormalizedCharacters(y);
      LowerKeepsLowerCase(y);
      RemovePunctuationKeepsAll(y);
      assert Split(y) == kept;
      RemoveStopWordsKeepsAll(kept, stop);
    }
  }
}
